=== FILE: README.md ===
# Campus-Circle points, task board and forum bookkeeping in Dafny

This project models the server core of Campus-Circle, a campus community backend, as pure
functions over one immutable `Store` of database tables. It covers three parts.

- **Points economy** (`api/server.js`):
  - the tiered daily check-in award (`calculateCheckinPoints`) and the published rules table;
  - the check-in status preview and the check-in itself;
  - the manual points addition.

  All three write the `points_records` ledger. `Ledger` defines what it means for that ledger
  to explain every `total_points` balance.
- **Task board** (`api/TaskModule.js`, classes `TaskService` and `TaskController`, and its
  TypeScript twin `lib/services/TaskService.ts`):
  - request validation, the points check and the 5-point publishing fee;
  - task creation, join eligibility and joining;
  - the filtered, sorted and paged task list;
  - the controller's defaults and its error-to-status mapping.
- **Forum bookkeeping** (`api/server.js`):
  - section create, join and leave, with the five-section cap and the `member_count` counter;
  - posts and their `post_count`, the like toggle and `like_count`;
  - comments with `comment_count` and `reply_count`;
  - the post and comment point rewards.

Every endpoint is a function `Store -> Result<(Store, reply), Error>`, so a refusal leaves the
store unchanged, just as the transaction rollback does. A generated uuid that collides with an
existing task, participation, section, member, post or comment key fails like the INSERT would
(`DuplicateKey`); check-in and points-record ids are taken as fresh. A body field that an INSERT
binds without a default keeps the difference between left out and `null` (`Field`): the MySQL
driver refuses to bind a left-out field, so that request fails and rolls back. Days are day
numbers, and "yesterday" is `today - 1`. Timestamps are integers. Generated ids and the clock are
parameters.

Files, one module each:

- `wrappers.dfy`: Option, Result, Outcome, and the request `Field`.
- `js_text.dfy`: JavaScript `trim`, `includes`, UTF-16 length and decimal rendering.
- `store.dfy`: the tables.
- `ledger.dfy`: posting to `points_records` and the replay invariant.
- `checkin.dfy`, `points.dfy`: check-in and the manual addition.
- `paging.dfy`, `task_listing.dfy`: offset pagination and the task list query.
- `task_module.dfy`, `task_controller.dfy`: the JavaScript task service and controller.
- `task_service_ts.dfy`: the TypeScript twin.
- `forum.dfy`: the forum endpoints.

Notable behaviours the proofs pin down:

- The check-in award equals the published rules table for every integer streak.
- A check-in streak is exactly the length of the run of consecutive check-in days.
- Joining never consults `max_participants` (`TaskModule.JoinIgnoresCapacity`).
- The TypeScript `createTask` skips request validation. A negative reward therefore lowers the
  points bar, and a creator with 0 points can publish and end at -5
  (`TaskServiceTs.NegativeRewardOverdraws`).
- The controller answers an over-long title and a negative reward with 500, not 400. Their
  messages contain none of the three fragments it looks for.
- The TypeScript interface marks `maxParticipants` and six other columns optional, yet its
  `createTask` binds them as they are, so leaving one out fails the insert where the JavaScript
  service stores NULL (`TaskServiceTs.OmittedCapacityFailsOnlyInTwin`).
- Post and comment rewards credit `total_points` without a `points_records` row. This breaks the
  ledger invariant that check-in, manual addition and task publishing keep
  (`Forum.PostRewardBreaksLedger`).

## Model

| member | source | states |
|---|---|---|
| JsText.TrimEmptyIffBlank | api/TaskModule.js:268-278 | `trim()` leaves an empty string exactly when every character of the text is JavaScript whitespace |
| JsText.ContainsIffOccurs | api/TaskModule.js:488 | `includes` holds exactly when the fragment occurs at some index of the message |
| JsText.DecimalAlphabet | api/TaskModule.js:309 | a number interpolated into a message contributes only digits and a minus sign |
| Ledger.Post | api/server.js:1970-1993 | a posting reads the balance as `\|\| 0`, writes balance plus or minus the amount to the profile (no row changes without a profile), appends one record whose `balance_after` is the new balance, and changes nothing else |
| Ledger.PostPreservesInvariant | api/server.js:1970-1993 | after a posting, replaying every user's records in order still reproduces each `balance_after` and the profile's `total_points` |
| Points.AddPoints | api/server.js:1943-2021 | the request is refused exactly when the amount is missing or zero or the source type or title is empty, and fails at the insert exactly when it is complete but leaves out `source_id` or `description`; otherwise only the caller's `total_points` grows by the amount, the rest of the row and every other profile untouched, and one earn record carries the source type, source id, title, description and new balance |
| Points.AddPointsPreservesLedger | api/server.js:1965-1995 | a manual addition keeps every balance explained by the ledger |
| Checkin.CheckinPoints | api/server.js:2024-2034 | the award lies between 5 and 50, is 5 for a streak of at most 1 and 50 from 30 days on |
| Checkin.CheckinPointsMonotone | api/server.js:2024-2034 | a longer streak never earns less |
| Checkin.CheckinPointsFollowRules | api/server.js:1646-1656 | for every integer streak the award is the points of the last published rule whose day the streak reaches |
| Checkin.RulesTableAgrees | api/server.js:1646-1656 | each row of the published rules table states the award the check-in actually pays for its day |
| Checkin.PerformCheckin | api/server.js:1500-1599 | the check-in fails exactly when today already has a record; otherwise it records yesterday's streak plus one (else 1), pays that streak's tier into `total_points` alone, and appends a `daily_checkin` earn record pointing at the new check-in |
| Checkin.Status | api/server.js:1431-1497 | the preview reports whether today is checked in and the number of check-in days, and today's award never exceeds tomorrow's |
| Checkin.StatusPredictsCheckin | api/server.js:1463-1465 | before checking in, `today_points` is what the check-in pays and `tomorrow_points` what checking in again tomorrow pays; afterwards the status reports the recorded streak and award |
| Checkin.SecondCheckinSameDayFails | api/server.js:1508-1518 | a second check-in on the same day is refused and the first left one record for the day |
| Checkin.SkippedDayResetsStreak | api/server.js:1520-1527 | a check-in two days after the last one starts a new streak of 1 worth 5 points |
| Checkin.CheckinPreservesStreaks | api/server.js:1520-1546 | every stored check-in keeps the streak and award the rules derive from the day before it |
| Checkin.StreakIsRunLength | api/server.js:1520-1526 | a stored streak of n means check-ins on each of the last n days and none on the day before them |
| Checkin.CheckinStep | api/server.js:1520-1556 | a check-in on a free day pays the tier of its streak, extends the streak the next day continues by one, and credits the award |
| Checkin.SeriesAwards | api/server.js:1520-1556 | check-ins on consecutive free days pay the tiers of a streak growing by one per day and credit their sum |
| Checkin.SevenDaysFromNothing | api/server.js:1646-1652 | seven consecutive check-ins from no streak pay 5, 6, 7, 8, 9, 10 and 15, 60 points in all |
| Checkin.CheckinPreservesLedger | api/server.js:1546-1571 | a check-in keeps every balance explained by the ledger |
| Paging.Offset | api/TaskModule.js:27 | the offset is non-negative exactly when the page is at least 1 (for a positive limit) |
| Paging.CeilDiv | api/TaskModule.js:89 | the page count is the least number of pages of `limit` rows that hold the total |
| Paging.TotalPages | api/TaskModule.js:89 | `Math.ceil(total / limit)` holds the total for a positive limit, is non-positive for a negative one and has no number for limit 0 |
| Paging.Window | api/TaskModule.js:62-63 | `LIMIT/OFFSET` returns the rows from the offset on, in order, at most `limit` of them, and exactly as many as remain |
| Paging.ItemOnItsPage | api/TaskModule.js:85-90 | row i of the result appears on page `i / limit + 1` at position `i % limit`, a page within `totalPages` |
| TaskListing.OrderFor | api/TaskModule.js:46-54 | `hot`, `urgent` and `reward` select their orderings and every other value selects newest first |
| TaskListing.BeforeTotal | api/TaskModule.js:46-54 | any two tasks are comparable under each ordering |
| TaskListing.BeforeTransitive | api/TaskModule.js:46-54 | each ordering, including its `created_at DESC` tie-break, is transitive |
| TaskListing.SortTasks | api/TaskModule.js:46-63 | `ORDER BY` returns a permutation of the rows that is sorted under the chosen ordering |
| TaskListing.Filter | api/TaskModule.js:29-36 | the `WHERE` clause keeps exactly the rows with the requested status and, for a non-zero category, that category, each as many times as the table holds it |
| TaskListing.ListTasks | api/TaskModule.js:21-92 | the query fails exactly on a negative limit or offset; otherwise the page is the `LIMIT/OFFSET` window of a sorted permutation of the matching rows, and the pagination counts all matching rows |
| TaskListing.UnknownSortIsLatest | api/TaskModule.js:46-54 | an unrecognised or empty sort value lists exactly as `latest` does |
| TaskListing.EveryMatchIsListed | api/TaskModule.js:27-90 | with a positive limit every matching task is listed on some page within `totalPages` |
| TaskModule.ValidateCreateTaskRequest | api/TaskModule.js:267-292 | each error is reported exactly when its rule is the first broken one, in the order blank title, title over 200 UTF-16 units, blank description, end time left out or `null`, end time not after now, negative reward; the request passes exactly when all hold |
| TaskModule.ValidateUserPoints | api/TaskModule.js:297-311 | only a points-rewarded task is checked, and it fails exactly when the balance is below reward plus 5, reporting both numbers |
| TaskModule.ProcessPointsForTaskCreation | api/TaskModule.js:352-380 | the fee of 5 (never the reward) is taken from the creator's `total_points`, the rest of the row untouched, and one `task_publish` spend record pointing at the task records the new balance |
| TaskModule.CreateTask | api/TaskModule.js:132-213 | validation errors come first, then the points check; after both, a taken id fails with a duplicate key and otherwise the defaulted row is inserted as an open task with no participants and, for a points reward, 5 is charged with a balance left covering the reward; only the creator's `total_points` changes among the profile columns, and earlier records, other profiles and every other table are untouched |
| TaskModule.OpenTask | api/TaskModule.js:317-324 | the lookup finds an open row with the id exactly when one exists |
| TaskModule.ValidateTaskForJoining | api/TaskModule.js:316-347 | each refusal is reported exactly when its rule is the first broken one (missing or closed, own task, expired, already joined), and the task is returned exactly when the user is eligible |
| TaskModule.JoinTask | api/TaskModule.js:218-251 | a join succeeds exactly when the user is eligible and the participation id is free, adds one live participation and raises that task's counter by one, leaving the rest of its row as it was; an eligible join with a taken id fails with a duplicate key, and otherwise the validation refusal is reported |
| TaskModule.CreateTaskPreservesBoard | api/TaskModule.js:132-213 | creation keeps ids unique, every counter equal to the task's live participations, every participation pointing at a task, and one live join per user and task |
| TaskModule.JoinTaskPreservesBoard | api/TaskModule.js:218-251 | joining keeps the same board invariant |
| TaskModule.JoinIgnoresCapacity | api/TaskModule.js:316-347 | a task already at its `max_participants` still accepts another participant |
| TaskModule.CreateTaskPreservesLedger | api/TaskModule.js:352-380 | task creation keeps every balance explained by the ledger |
| TaskModule.JoinTaskPreservesLedger | api/TaskModule.js:218-251 | joining keeps every balance explained by the ledger |
| TaskController.ControllerDefaults | api/TaskModule.js:456-476 | an absent or zero reward type means points, reward value 10, and category and difficulty 1, a missing requirements list is empty; given non-zero values and every field without a default pass through, and the creator is the caller |
| TaskController.CreateTaskStatusClassifies | api/TaskModule.js:486-500 | a creation error is answered 400 exactly for insufficient points, a blank title or description, a missing end time or an end time not after now, and 500 otherwise, including the driver's duplicate-key and unbound-parameter errors |
| TaskController.JoinTaskStatusClassifies | api/TaskModule.js:519-533 | a join error is answered 400 exactly for the four join refusals and 500 otherwise |
| TaskController.CreateTaskEndpoint | api/TaskModule.js:452-502 | the endpoint answers 201 exactly when the service creates the task, and otherwise leaves the store unchanged with the error's status |
| TaskController.OverlongTitleIsServerError | api/TaskModule.js:486-500 | a title over 200 units is refused with status 500 |
| TaskController.NegativeRewardIsServerError | api/TaskModule.js:486-500 | a negative reward on an otherwise valid body is refused with status 500 |
| TaskController.DefaultRewardNeedsFifteen | api/TaskModule.js:460-461 | a body without reward type or value needs 15 points: below that it is answered 400, from 15 on it is created and charged 5 |
| TaskController.JoinTaskEndpoint | api/TaskModule.js:505-535 | the endpoint answers 201 exactly when the user is eligible and the participation id is free, with the service's store, and otherwise leaves the store unchanged with the error's status |
| TaskController.JoinRefusalsAreClientErrors | api/TaskModule.js:519-533 | a join is answered 400 exactly when an eligibility rule refuses it and 500 exactly when it is eligible but the participation id is taken |
| TaskController.ListQueryOf | api/TaskModule.js:397-403 | missing or zero page, limit and status default to 1, 20 and 1 and an empty sort to `latest`; given non-zero values, a given sort and the category pass through |
| TaskController.GetTasksEndpoint | api/TaskModule.js:395-420 | the list endpoint answers 200 exactly when the service lists the defaulted query, with the service's page, and 500 with no page otherwise |
| TaskController.DefaultListing | api/TaskModule.js:397-403 | an empty query string lists at most 20 open tasks, newest first |
| TaskServiceTs.MapRowToTask | lib/services/TaskService.ts:425-455 | a flag is true exactly when its column is 1; the requirements take the `[]` default exactly when the column is NULL or empty, and otherwise the column's own text is parsed; every other column is copied unchanged |
| TaskServiceTs.FlagsRoundTrip | lib/services/TaskService.ts:425-455 | the three boolean flags survive storing as 1/0 and mapping back, from either service's row |
| TaskServiceTs.StoredRequirementsParse | api/TaskModule.js:168 | a list the JavaScript service was not given is stored as `[]` and parsed, a given one is parsed unless it is empty, and the twin stores a `null` list as the text `null` |
| TaskServiceTs.ValidateUserPoints | lib/services/TaskService.ts:337-351 | the points check is the JavaScript service's |
| TaskServiceTs.ProcessPointsForTaskCreation | lib/services/TaskService.ts:392-420 | the fee posting is the JavaScript service's: 5 charged, one `task_publish` record |
| TaskServiceTs.CreateTask | lib/services/TaskService.ts:217-273 | creation succeeds exactly when the points check passes, no bound field was left out and the id is free; after the points check a left-out field fails the insert, and otherwise a taken id fails it with a duplicate key; the inserted row is the request as given, returned mapped; a points reward charges 5 with one `task_publish` spend record pointing at the task; only the creator's `total_points` changes among the profile columns, and earlier records, other profiles and every other table are untouched |
| TaskServiceTs.CreateTaskSkipsValidation | lib/services/TaskService.ts:217-223 | whenever the points check passes and the id is free, the task is created exactly when no bound field was left out, including requests the JavaScript service rejects |
| TaskServiceTs.CreateTaskAgreesOnValidRequests | lib/services/TaskService.ts:217-273 | on a valid request the twin succeeds exactly when the JavaScript service does and no bound field was left out, and then both leave the same balances and records |
| TaskServiceTs.NegativeRewardOverdraws | lib/services/TaskService.ts:217-223 | a creator with 0 points publishing with reward -5 succeeds and ends at -5, while the JavaScript service refuses |
| TaskServiceTs.OmittedCapacityFailsOnlyInTwin | lib/services/TaskService.ts:238-246 | a valid request without `maxParticipants` fails the twin's insert while the JavaScript service creates the task with no capacity |
| TaskServiceTs.ValidateTaskForJoining | lib/services/TaskService.ts:356-387 | the join rules and their order are the JavaScript service's, returning the mapped task |
| TaskServiceTs.JoinTask | lib/services/TaskService.ts:278-311 | joining, including the duplicate-key failure, is the JavaScript service's |
| TaskServiceTs.GetTasks | lib/services/TaskService.ts:119-174 | the list has the JavaScript service's success, pagination and rows, mapped |
| TaskServiceTs.CreateTaskPreservesLedger | lib/services/TaskService.ts:392-420 | the twin's creation keeps every balance explained by the ledger |
| Forum.FirstActive | api/server.js:931-944 | the lookup finds an active row of the user in the section exactly when one exists |
| Forum.WithdrawById | api/server.js:959-962 | the row with the id becomes withdrawn and every other row is unchanged |
| Forum.LiveMembersWithdraw | api/server.js:959-968 | withdrawing one live row lowers its section's live count by one and no other section's |
| Forum.CreateSection | api/server.js:722-834 | each refusal is reported exactly when its rule is the first broken one (empty name or description, five live sections already, name in use by a live section, `rules` left out of the body, then a taken section or member id as a duplicate key); a new section is stored with the given name and description, join and post permissions defaulting to 1, and one member, its creator in role 3 |
| Forum.CreateSectionRespectsCap | api/server.js:745-757 | a creation adds exactly one live section to its creator's tally, which stays at most five, and changes no one else's |
| Forum.JoinSection | api/server.js:837-922 | each refusal is reported exactly when its rule is the first broken one (missing or closed section, a live member, an invite-only section, a body without `join_reason`, then a taken member id as a duplicate key); otherwise it adds a row, pending when the section reviews joins, and the member count grows by one |
| Forum.LeaveSection | api/server.js:925-991 | leaving needs an active row and is refused to the creator; otherwise that row is withdrawn and the member count drops by one |
| Forum.CreateSectionPreservesInvariant | api/server.js:781-803 | creating a section keeps unique member ids, member counts equal to live rows, every row in an existing section, and one live row per user and section |
| Forum.JoinSectionPreservesInvariant | api/server.js:886-901 | joining keeps the same invariant |
| Forum.LeaveSectionPreservesInvariant | api/server.js:957-970 | leaving keeps the same invariant |
| Forum.CreatePost | api/server.js:1115-1241 | each refusal is reported exactly when its rule is the first broken one (empty title or content, missing or closed section, not an active member, moderators-only section and an ordinary member, `video_url` or `link_url` left out, then a taken post id as a duplicate key); a post with its URLs is stored (pending in a reviewed section), the post count grows and the author gains a post and 3 points with no ledger record |
| Forum.ToggleLike | api/server.js:1244-1325 | a like on a published post is removed when present and added otherwise, the like count moving with it, and the reply says whether the user now likes the post |
| Forum.ToggleTwiceRestores | api/server.js:1262-1303 | toggling twice restores the store exactly, and the two replies differ |
| Forum.CreateComment | api/server.js:1328-1424 | each refusal is reported exactly when its rule is the first broken one (empty content, missing or unpublished post, `parent_id` or `reply_to_user_id` left out, then a taken comment id as a duplicate key); the comment is stored with them, the post's comment count grows, a non-empty parent gains a reply, and the author gains a comment and 1 point with no ledger record |
| Forum.CreatePostPreservesInvariant | api/server.js:1184-1210 | publishing keeps like counts, comment counts and references consistent |
| Forum.ToggleLikePreservesInvariant | api/server.js:1270-1303 | the like toggle keeps every like count equal to the number of likes |
| Forum.CreateCommentPreservesInvariant | api/server.js:1360-1393 | commenting keeps every comment count equal to the number of comments on the post |
| Forum.PostRewardBreaksLedger | api/server.js:1205-1208 | publishing raises the author's balance by 3 with no record, so a ledger that explained the balance no longer does |
| Forum.CommentRewardBreaksLedger | api/server.js:1388-1391 | commenting raises the balance by 1 with no record, with the same effect |
| Forum.MembershipAndLikesKeepLedger | api/server.js:886-970 | operations that leave profiles and records alone keep every balance explained by the ledger |

## Left out

- HTTP handling: authentication (`authenticateToken`, JWT) and the response envelopes.
- The forum endpoints' status codes (400/403/404) and messages. Each refusal is a `ForumError` constructor instead.
- Database failures other than a duplicate primary key and an unbound parameter are not modelled. The forum's 500 answer is not modelled either.
- Concurrency is not modelled. Each endpoint is one atomic step, so races between a check and the following insert are not covered.
- Dates: `toISOString().split('T')[0]` day strings, UTC day boundaries and `formatDateForMySQL` are replaced by integer days and timestamps. `next_checkin_date` and `last_checkin_date` of the status reply are left out.
- uuid generation: ids are parameters.
- Read-only endpoints outside the bookkeeping are left out. These are:
  - the section and post lists and details;
  - check-in history;
  - the points profile, history, statistics and earn-ways;
  - `getTaskDetail` and `getTaskCategories`.
  The first three use the same `Paging` arithmetic.
- Registration, login and profile editing are left out. A profile is assumed to exist, or its absence is handled as the UPDATE would handle it.
- The `search` parameter of the task list (`LIKE` matching) is not modelled.
- The fallback that retries a failed list query with inlined parameters is not modelled. A negative `LIMIT` or `OFFSET` fails both queries, so it is modelled as one failure.
- Columns that no rule reads are not stored: reward description, estimated time, start time, recurring type, location details, section rules, join reason, images, tags, anonymity, last comment time and `updated_at`. Where an INSERT binds one of them without a default, whether it was sent is modelled.
- JSON parsing of `requirements` is not modelled. The column is kept as text.
- Values of the wrong JSON type are not modelled, for example a string `points` that JavaScript would concatenate.
- Checkin.PerformCheckin: the generated check-in id and points-record id are taken as fresh. An id that collided with an existing row would fail the insert with 500; that failure is not modelled, and `points_records` ids are not stored.
- TaskServiceTs.CreateTask: the reward description, estimated time, start time, recurring type, location address and location radius are checked only for being sent; their values are not stored in the modelled row.
- TaskListing.ListTasks: `ORDER BY` leaves the order of rows that tie on every key to the database. The contract therefore says the page is the window of some sorted order of the matching rows, not of one fixed order.
- TaskModule.CreateTask: the contract names the id, status, participant count, creator and title of the inserted row and says it is `TaskRow`; the other columns are the `||` defaults of the INSERT that `TaskRow` writes, and are not restated one by one.
- Checkin.Status: the contract does not restate `consecutive_days`. That is the streak `CurrentStreak` reads, and `StatusPredictsCheckin` relates it to the check-in.
- Paging.TotalPages: JavaScript renders `Math.ceil(total / 0)` as `Infinity` or `NaN`, which JSON sends as `null`. Both are the single value `NoCount`.

=== FILE: checkin.dfy ===
/**
 * Daily check-in: the tiered award, the status preview and the check-in itself
 * (`calculateCheckinPoints`, `GET /checkin/status`, `POST /checkin`, `GET /checkin/rules`).
 * Days are day numbers; "yesterday" is `today - 1`.
 */
module Checkin {
  import opened Wrappers
  import opened Store
  import JsText
  import Ledger

  /** `calculateCheckinPoints`: the award for a check-in that makes a streak of `consecutiveDays`. */
  function CheckinPoints(consecutiveDays: int): (p: int)
    ensures 5 <= p <= 50
    ensures consecutiveDays <= 1 ==> p == 5
    ensures consecutiveDays >= 30 ==> p == 50
  {
    if consecutiveDays >= 30 then 50
    else if consecutiveDays >= 14 then 25
    else if consecutiveDays >= 7 then 15
    else if consecutiveDays >= 6 then 10
    else if consecutiveDays >= 5 then 9
    else if consecutiveDays >= 4 then 8
    else if consecutiveDays >= 3 then 7
    else if consecutiveDays >= 2 then 6
    else 5
  }

  /** A longer streak never earns less. */
  lemma CheckinPointsMonotone(a: int, b: int)
    requires a <= b
    ensures CheckinPoints(a) <= CheckinPoints(b)
  {
  }

  /** One row of the published rules table. */
  datatype Rule = Rule(day: int, points: int, isBonus: bool)

  /** `GET /checkin/rules`: the table shown to users, in ascending order of day. */
  const Rules: seq<Rule> := [
    Rule(1, 5, false), Rule(2, 6, false), Rule(3, 7, false), Rule(4, 8, false), Rule(5, 9, false),
    Rule(6, 10, false), Rule(7, 15, true), Rule(14, 25, true), Rule(30, 50, true)
  ]

  /**
   * The rules table read as "the highest threshold reached wins": the points of the last
   * rule whose day is at most `d`, and the first rule's points below every threshold.
   */
  function RuleFor(rules: seq<Rule>, d: int): int
    requires |rules| > 0
    decreases |rules|
  {
    if |rules| == 1 then rules[0].points
    else if d >= rules[|rules| - 1].day then rules[|rules| - 1].points
    else RuleFor(rules[..|rules| - 1], d)
  }

  /** The award function is exactly the published table, for every integer streak (0 and negatives earn the day-1 amount). */
  lemma CheckinPointsFollowRules(d: int)
    ensures CheckinPoints(d) == RuleFor(Rules, d)
  {
    RuleForPrefix(2, d);
    RuleForPrefix(3, d);
    RuleForPrefix(4, d);
    RuleForPrefix(5, d);
    RuleForPrefix(6, d);
    RuleForPrefix(7, d);
    RuleForPrefix(8, d);
    RuleForPrefix(9, d);
    assert Rules[..9] == Rules;
  }

  /** Reading the first `k` rules consults the last of them first. */
  lemma RuleForPrefix(k: int, d: int)
    requires 2 <= k <= |Rules|
    ensures RuleFor(Rules[..1], d) == 5
    ensures RuleFor(Rules[..k], d) ==
      if d >= Rules[k - 1].day then Rules[k - 1].points else RuleFor(Rules[..k - 1], d)
  {
    assert Rules[..k][..k - 1] == Rules[..k - 1];
  }

  /** Each row of the rules table states the award the engine actually pays. */
  lemma RulesTableAgrees()
    ensures forall i :: 0 <= i < |Rules| ==> CheckinPoints(Rules[i].day) == Rules[i].points
  {
  }

  /** The streak a check-in on `today` records: yesterday's streak plus one, else 1. */
  function NextStreak(s: Store, u: UserId, today: Day): int {
    if (u, today - 1) in s.checkins then s.checkins[(u, today - 1)].consecutiveDays + 1 else 1
  }

  /** The reply of a successful check-in. */
  datatype CheckinReply = CheckinReply(
    checkinId: string, consecutiveDays: int, pointsEarned: int, totalPoints: int, checkinDate: Day)

  datatype CheckinError = AlreadyCheckedIn

  /** The ledger text of a check-in award. */
  function AwardDescription(streak: int, points: int): string {
    "连续签到" + JsText.Decimal(streak) + "天，获得" + JsText.Decimal(points) + "积分"
  }

  /**
   * `POST /checkin` for user `u` on day `today`, with generated id `checkinId` and clock `now`.
   * Fails when today already has a record; otherwise records the streak, credits the award and
   * appends one `daily_checkin` earn record pointing at the new check-in.
   */
  function PerformCheckin(s: Store, u: UserId, today: Day, checkinId: string, now: Timestamp)
    : (r: Result<(Store, CheckinReply), CheckinError>)
    ensures r.Err? <==> (u, today) in s.checkins
    ensures r.Ok? ==>
      var (s', reply) := r.value;
      var streak := NextStreak(s, u, today);
      var award := CheckinPoints(streak);
      && reply.consecutiveDays == streak
      && reply.pointsEarned == award
      && reply.totalPoints == Balance(s, u) + award
      && s'.checkins == s.checkins[(u, today) := CheckinRecord(checkinId, u, today, streak, award, now)]
      && |s'.records| == |s.records| + 1 && s'.records[..|s.records|] == s.records
      && s'.records[|s.records|].userId == u
      && s'.records[|s.records|].kind == Earn
      && s'.records[|s.records|].sourceType == "daily_checkin"
      && s'.records[|s.records|].sourceId == Some(checkinId)
      && s'.records[|s.records|].points == award
      && s'.records[|s.records|].balanceAfter == reply.totalPoints
      && (u in s.profiles ==> Balance(s', u) == Balance(s, u) + award)
      && (u in s.profiles ==> u in s'.profiles && s'.profiles[u] == s.profiles[u].(totalPoints := Balance(s, u) + award))
      && s'.profiles.Keys == s.profiles.Keys
      && (forall v :: v in s.profiles && v != u ==> s'.profiles[v] == s.profiles[v])
      && s'.tasks == s.tasks && s'.userTasks == s.userTasks && s'.sections == s.sections
      && s'.members == s.members && s'.posts == s.posts && s'.comments == s.comments && s'.likes == s.likes
  {
    if (u, today) in s.checkins then Err(AlreadyCheckedIn)
    else
      var streak := NextStreak(s, u, today);
      var award := CheckinPoints(streak);
      var s1 := s.(checkins := s.checkins[(u, today) := CheckinRecord(checkinId, u, today, streak, award, now)]);
      var s2 := Ledger.Post(s1, u, Earn, "daily_checkin", Some(checkinId), award,
                            "每日签到奖励", Some(AwardDescription(streak, award)), now);
      Ok((s2, CheckinReply(checkinId, streak, award, Balance(s, u) + award, today)))
  }

  /** The data of `GET /checkin/status`. */
  datatype CheckinStatus = CheckinStatus(
    hasCheckedInToday: bool, consecutiveDays: int, totalCheckinDays: nat, todayPoints: int, tomorrowPoints: int)

  /** The streak the status reports: today's if checked in, else yesterday's, else 0. */
  function CurrentStreak(s: Store, u: UserId, today: Day): int {
    if (u, today) in s.checkins then s.checkins[(u, today)].consecutiveDays
    else if (u, today - 1) in s.checkins then s.checkins[(u, today - 1)].consecutiveDays
    else 0
  }

  /** The days on which `u` has checked in. */
  function CheckinDays(s: Store, u: UserId): set<Day> {
    set k | k in s.checkins && k.0 == u :: k.1
  }

  /**
   * `GET /checkin/status`: a read-only preview. `todayPoints` is what checking in now pays (or
   * paid), `tomorrowPoints` what checking in tomorrow would pay after checking in today.
   */
  function Status(s: Store, u: UserId, today: Day): (v: CheckinStatus)
    ensures v.hasCheckedInToday <==> (u, today) in s.checkins
    ensures v.totalCheckinDays == |CheckinDays(s, u)|
    ensures 5 <= v.todayPoints <= v.tomorrowPoints <= 50
  {
    var checked := (u, today) in s.checkins;
    var c := CurrentStreak(s, u, today);
    var todayPoints := CheckinPoints(c + (if checked then 0 else 1));
    var tomorrowPoints := CheckinPoints(c + (if checked then 1 else 2));
    CheckinPointsMonotone(c + (if checked then 0 else 1), c + (if checked then 1 else 2));
    CheckinStatus(checked, c, |CheckinDays(s, u)|, todayPoints, tomorrowPoints)
  }

  /**
   * The status preview tells the truth: before today's check-in, `todayPoints` is the award the
   * check-in pays and `tomorrowPoints` the award of checking in again tomorrow; afterwards the
   * status reports the streak and award just recorded.
   */
  lemma StatusPredictsCheckin(s: Store, u: UserId, today: Day, id1: string, id2: string, t1: Timestamp, t2: Timestamp)
    requires (u, today) !in s.checkins && (u, today + 1) !in s.checkins
    ensures var v := Status(s, u, today);
      && PerformCheckin(s, u, today, id1, t1).Ok?
      && var (s1, reply1) := PerformCheckin(s, u, today, id1, t1).value;
      && reply1.pointsEarned == v.todayPoints
      && Status(s1, u, today).hasCheckedInToday
      && Status(s1, u, today).consecutiveDays == reply1.consecutiveDays
      && Status(s1, u, today).todayPoints == reply1.pointsEarned
      && PerformCheckin(s1, u, today + 1, id2, t2).Ok?
      && PerformCheckin(s1, u, today + 1, id2, t2).value.1.pointsEarned == v.tomorrowPoints
      && Status(s1, u, today).tomorrowPoints == v.tomorrowPoints
  {
  }

  /** A second check-in on the same day fails, and the first left exactly one record for the day. */
  lemma SecondCheckinSameDayFails(s: Store, u: UserId, today: Day, id1: string, id2: string, t1: Timestamp, t2: Timestamp)
    requires (u, today) !in s.checkins
    ensures PerformCheckin(s, u, today, id1, t1).Ok?
    ensures var s1 := PerformCheckin(s, u, today, id1, t1).value.0;
      && PerformCheckin(s1, u, today, id2, t2) == Err(AlreadyCheckedIn)
      && s1.checkins[(u, today)].id == id1
      && |s1.records| == |s.records| + 1
  {
  }

  /** Missing a day resets the streak: a check-in two days after the last one starts again at 1. */
  lemma SkippedDayResetsStreak(s: Store, u: UserId, d: Day, id1: string, id2: string, t1: Timestamp, t2: Timestamp)
    requires (u, d) !in s.checkins && (u, d + 1) !in s.checkins && (u, d + 2) !in s.checkins
    ensures PerformCheckin(s, u, d, id1, t1).Ok?
    ensures var s1 := PerformCheckin(s, u, d, id1, t1).value.0;
      && PerformCheckin(s1, u, d + 2, id2, t2).Ok?
      && PerformCheckin(s1, u, d + 2, id2, t2).value.1.consecutiveDays == 1
      && PerformCheckin(s1, u, d + 2, id2, t2).value.1.pointsEarned == 5
  {
  }

  /** A stored check-in sits under its own (user, day) key, with the streak and award the rules give it. */
  predicate RecordWellFormed(s: Store, k: (UserId, Day))
    requires k in s.checkins
  {
    var c := s.checkins[k];
    && c.userId == k.0 && c.checkinDate == k.1
    && c.consecutiveDays == NextStreak(s, k.0, k.1)
    && c.pointsEarned == CheckinPoints(c.consecutiveDays)
  }

  predicate WellFormedCheckins(s: Store) {
    forall k :: k in s.checkins ==> RecordWellFormed(s, k)
  }

  /**
   * A check-in keeps every streak consistent with the day before it, provided the clock has not
   * run backwards (no record yet for the day after `today`).
   */
  lemma CheckinPreservesStreaks(s: Store, u: UserId, today: Day, id: string, now: Timestamp)
    requires WellFormedCheckins(s)
    requires (u, today + 1) !in s.checkins
    requires PerformCheckin(s, u, today, id, now).Ok?
    ensures WellFormedCheckins(PerformCheckin(s, u, today, id, now).value.0)
  {
    var s' := PerformCheckin(s, u, today, id, now).value.0;
    forall k | k in s'.checkins ensures RecordWellFormed(s', k) {
      if k != (u, today) {
        assert RecordWellFormed(s, k);
        assert (k.0, k.1 - 1) != (u, today);
      }
    }
  }

  /** The days before `d` on which `u` checked in. */
  function DaysBefore(s: Store, u: UserId, d: Day): set<Day> {
    set k | k in s.checkins && k.0 == u && k.1 < d :: k.1
  }

  lemma DaysBeforeShrinks(s: Store, u: UserId, d: Day)
    requires (u, d - 1) in s.checkins
    ensures |DaysBefore(s, u, d - 1)| < |DaysBefore(s, u, d)|
  {
    assert DaysBefore(s, u, d) == DaysBefore(s, u, d - 1) + {d - 1};
    assert d - 1 !in DaysBefore(s, u, d - 1);
  }

  /**
   * In a well-formed store `consecutive_days` is the length of the unbroken run of check-ins
   * ending on that day: every one of the last `n` days has a record and the day before them has none.
   */
  lemma StreakIsRunLength(s: Store, u: UserId, d: Day)
    requires WellFormedCheckins(s) && (u, d) in s.checkins
    ensures var n := s.checkins[(u, d)].consecutiveDays;
      && n >= 1
      && (u, d - n) !in s.checkins
      && forall j :: d - n < j <= d ==> (u, j) in s.checkins
  {
    assert StreaksChain(s) by {
      forall k | k in s.checkins ensures s.checkins[k].consecutiveDays == NextStreak(s, k.0, k.1) {
        assert RecordWellFormed(s, k);
      }
    }
    ChainedRunLength(s, u, d);
  }

  /** Every stored streak continues the one of the day before (the streak half of well-formedness). */
  predicate StreaksChain(s: Store) {
    forall k :: k in s.checkins ==> s.checkins[k].consecutiveDays == NextStreak(s, k.0, k.1)
  }

  lemma {:induction false} ChainedRunLength(s: Store, u: UserId, d: Day)
    requires StreaksChain(s) && (u, d) in s.checkins
    ensures var n := s.checkins[(u, d)].consecutiveDays;
      && n >= 1
      && (u, d - n) !in s.checkins
      && forall j :: d - n < j <= d ==> (u, j) in s.checkins
    decreases |DaysBefore(s, u, d)|
  {
    assert s.checkins[(u, d)].consecutiveDays == NextStreak(s, u, d);
    if (u, d - 1) in s.checkins {
      DaysBeforeShrinks(s, u, d);
      ChainedRunLength(s, u, d - 1);
      assert s.checkins[(u, d)].consecutiveDays == s.checkins[(u, d - 1)].consecutiveDays + 1;
    }
  }

  /** Check-ins by `u` on `|ids|` consecutive days from `first`, collecting the awards. */
  function CheckinSeries(s: Store, u: UserId, first: Day, ids: seq<string>, now: Timestamp)
    : Result<(Store, seq<int>), CheckinError>
    decreases |ids|
  {
    if |ids| == 0 then Ok((s, []))
    else
      var (s1, reply) :- PerformCheckin(s, u, first, ids[0], now);
      var (s2, awards) :- CheckinSeries(s1, u, first + 1, ids[1..], now);
      Ok((s2, [reply.pointsEarned] + awards))
  }

  function Sum(xs: seq<int>): int {
    if |xs| == 0 then 0 else xs[0] + Sum(xs[1..])
  }

  /** What one check-in of a series hands on to the next day. */
  lemma CheckinStep(s: Store, u: UserId, day: Day, id: string, now: Timestamp)
    requires (u, day) !in s.checkins
    ensures PerformCheckin(s, u, day, id, now).Ok?
    ensures var (s1, reply) := PerformCheckin(s, u, day, id, now).value;
      && reply.pointsEarned == CheckinPoints(NextStreak(s, u, day))
      && NextStreak(s1, u, day + 1) == NextStreak(s, u, day) + 1
      && (forall d :: (u, d) in s1.checkins <==> (u, d) in s.checkins || d == day)
      && (u in s.profiles ==> u in s1.profiles && Balance(s1, u) == Balance(s, u) + reply.pointsEarned)
  {
  }

  /**
   * Checking in on consecutive free days pays the tier of a streak that grows by one each day,
   * starting from the streak the first day continues, and credits the sum of the awards.
   */
  lemma SeriesAwards(s: Store, u: UserId, first: Day, ids: seq<string>, now: Timestamp)
    requires forall d :: first <= d < first + |ids| ==> (u, d) !in s.checkins
    ensures var r := CheckinSeries(s, u, first, ids, now);
      && r.Ok?
      && |r.value.1| == |ids|
      && (forall i :: 0 <= i < |ids| ==> r.value.1[i] == CheckinPoints(NextStreak(s, u, first) + i))
      && (u in s.profiles ==> u in r.value.0.profiles && Balance(r.value.0, u) == Balance(s, u) + Sum(r.value.1))
  {
    SeriesTiers(s, u, first, ids, now);
    SeriesCredit(s, u, first, ids, now);
  }

  /** Award i is the tier of streak `base + i`. */
  predicate PaysTiers(awards: seq<int>, base: int) {
    forall i :: 0 <= i < |awards| ==> awards[i] == CheckinPoints(base + i)
  }

  /** The awards of a series on free days: one per day, the tiers of a streak growing by one. */
  lemma {:induction false} SeriesTiers(s: Store, u: UserId, first: Day, ids: seq<string>, now: Timestamp)
    requires forall d :: first <= d < first + |ids| ==> (u, d) !in s.checkins
    ensures var r := CheckinSeries(s, u, first, ids, now);
      r.Ok? && |r.value.1| == |ids| && PaysTiers(r.value.1, NextStreak(s, u, first))
    decreases |ids|
  {
    if |ids| > 0 {
      CheckinStep(s, u, first, ids[0], now);
      var step := PerformCheckin(s, u, first, ids[0], now).value;
      FreeDaysAfterCheckin(s, step.0, u, first, |ids|);
      SeriesTiers(step.0, u, first + 1, ids[1..], now);
      var awards := CheckinSeries(step.0, u, first + 1, ids[1..], now).value.1;
      SeriesCons(s, u, first, ids, now);
      AwardsCons(step.1.pointsEarned, awards, NextStreak(s, u, first), NextStreak(step.0, u, first + 1));
    }
  }

  /** A series on free days credits the sum of its awards to an existing profile. */
  lemma {:induction false} SeriesCredit(s: Store, u: UserId, first: Day, ids: seq<string>, now: Timestamp)
    requires forall d :: first <= d < first + |ids| ==> (u, d) !in s.checkins
    ensures var r := CheckinSeries(s, u, first, ids, now);
      r.Ok? && (u in s.profiles ==> u in r.value.0.profiles && Balance(r.value.0, u) == Balance(s, u) + Sum(r.value.1))
    decreases |ids|
  {
    if |ids| > 0 {
      CheckinStep(s, u, first, ids[0], now);
      var step := PerformCheckin(s, u, first, ids[0], now).value;
      FreeDaysAfterCheckin(s, step.0, u, first, |ids|);
      SeriesCredit(step.0, u, first + 1, ids[1..], now);
      SeriesCons(s, u, first, ids, now);
      var awards := CheckinSeries(step.0, u, first + 1, ids[1..], now).value.1;
      assert Sum([step.1.pointsEarned] + awards) == step.1.pointsEarned + Sum(awards) by {
        assert ([step.1.pointsEarned] + awards)[1..] == awards;
      }
    }
  }

  /** The days after a check-in's day that were free stay free. */
  lemma FreeDaysAfterCheckin(s: Store, s1: Store, u: UserId, first: Day, n: nat)
    requires forall d :: (u, d) in s1.checkins <==> (u, d) in s.checkins || d == first
    requires forall d :: first <= d < first + n ==> (u, d) !in s.checkins
    ensures forall d :: first + 1 <= d < first + 1 + (n - 1) ==> (u, d) !in s1.checkins
  {
  }

  /** One step of a series: the first check-in, then the series from the next day. */
  lemma SeriesCons(s: Store, u: UserId, first: Day, ids: seq<string>, now: Timestamp)
    requires |ids| > 0 && PerformCheckin(s, u, first, ids[0], now).Ok?
    requires CheckinSeries(PerformCheckin(s, u, first, ids[0], now).value.0, u, first + 1, ids[1..], now).Ok?
    ensures var (s1, reply) := PerformCheckin(s, u, first, ids[0], now).value;
      var rest := CheckinSeries(s1, u, first + 1, ids[1..], now).value;
      CheckinSeries(s, u, first, ids, now) == Ok((rest.0, [reply.pointsEarned] + rest.1))
  {
  }

  lemma AwardsCons(x: int, awards: seq<int>, base: int, next: int)
    requires x == CheckinPoints(base) && next == base + 1 && PaysTiers(awards, next)
    ensures PaysTiers([x] + awards, base)
  {
  }

  /** Seven consecutive check-ins from no streak earn 5, 6, 7, 8, 9, 10 and 15: 60 points in all. */
  lemma SevenDaysFromNothing(s: Store, u: UserId, first: Day, ids: seq<string>, now: Timestamp)
    requires |ids| == 7 && u in s.profiles
    requires (u, first - 1) !in s.checkins
    requires forall d :: first <= d < first + 7 ==> (u, d) !in s.checkins
    ensures CheckinSeries(s, u, first, ids, now).Ok?
    ensures CheckinSeries(s, u, first, ids, now).value.1 == [5, 6, 7, 8, 9, 10, 15]
    ensures Balance(CheckinSeries(s, u, first, ids, now).value.0, u) == Balance(s, u) + 60
  {
    SeriesAwards(s, u, first, ids, now);
    var awards := CheckinSeries(s, u, first, ids, now).value.1;
    assert NextStreak(s, u, first) == 1;
    FirstWeek(awards);
  }

  /** The tiers of streak days 1 to 7, and their total. */
  lemma FirstWeek(awards: seq<int>)
    requires |awards| == 7 && forall i :: 0 <= i < 7 ==> awards[i] == CheckinPoints(1 + i)
    ensures awards == [5, 6, 7, 8, 9, 10, 15] && Sum(awards) == 60
  {
    assert awards[0] == 5 && awards[1] == 6 && awards[2] == 7 && awards[3] == 8;
    assert awards[4] == 9 && awards[5] == 10 && awards[6] == 15;
    assert awards == [5, 6, 7, 8, 9, 10, 15];
    assert Sum([15]) == 15;
    assert Sum([10, 15]) == 25;
    assert Sum([9, 10, 15]) == 34;
    assert Sum([8, 9, 10, 15]) == 42;
    assert Sum([7, 8, 9, 10, 15]) == 49;
    assert Sum([6, 7, 8, 9, 10, 15]) == 55;
  }

  /** A check-in keeps every profile balance explained by the points ledger. */
  lemma CheckinPreservesLedger(s: Store, u: UserId, today: Day, id: string, now: Timestamp)
    requires Ledger.Invariant(s)
    requires PerformCheckin(s, u, today, id, now).Ok?
    ensures Ledger.Invariant(PerformCheckin(s, u, today, id, now).value.0)
  {
    var streak := NextStreak(s, u, today);
    var award := CheckinPoints(streak);
    var s1 := s.(checkins := s.checkins[(u, today) := CheckinRecord(id, u, today, streak, award, now)]);
    assert Ledger.Invariant(s1) by {
      forall v | v in s1.profiles ensures Ledger.Consistent(s1, v) {
        assert Ledger.Consistent(s, v);
      }
    }
    Ledger.PostPreservesInvariant(s1, u, Earn, "daily_checkin", Some(id), award,
                                  "每日签到奖励", Some(AwardDescription(streak, award)), now);
  }
}

=== FILE: forum.dfy ===
/**
 * The forum side of `api/server.js`: sections and their membership, posts, likes and comments,
 * with the counters each endpoint keeps in step and the flat points posting and commenting credit.
 */
module Forum {
  import opened Wrappers
  import opened Store
  import Ledger

  /** The most live sections one user may have created. */
  const MaxSections := 5

  /** Points credited for publishing a post and for writing a comment. */
  const PostReward := 3
  const CommentReward := 1

  /**
   * The refusals of the forum endpoints (each answered with its own message and 400/403/404), and
   * the two database failures answered 500 after a rollback: a taken primary key, and a body field
   * the INSERT binds that was left out of the request.
   */
  datatype ForumError =
    | MissingFields | SectionLimit | NameTaken | SectionNotFound | AlreadyMember | InviteOnly
    | NotMember | CreatorCannotLeave | NotPostingMember | ModeratorsOnly | PostNotFound
    | DuplicateKey | UnboundField

  // ---------------------------------------------------------------- membership rows

  /** The rows of section `sid` that are not withdrawn: active (1) and pending (2) ones. */
  function LiveMembers(ms: seq<Member>, sid: SectionId): nat
    decreases |ms|
  {
    if |ms| == 0 then 0
    else LiveMembers(ms[..|ms| - 1], sid) + (if ms[|ms| - 1].sectionId == sid && ms[|ms| - 1].status != 0 then 1 else 0)
  }

  lemma LiveMembersAppend(ms: seq<Member>, m: Member, sid: SectionId)
    ensures LiveMembers(ms + [m], sid) == LiveMembers(ms, sid) + (if m.sectionId == sid && m.status != 0 then 1 else 0)
  {
    assert (ms + [m])[..|ms|] == ms;
  }

  lemma {:induction false} NoLiveMembersElsewhere(ms: seq<Member>, sid: SectionId)
    requires forall i :: 0 <= i < |ms| ==> ms[i].sectionId != sid
    ensures LiveMembers(ms, sid) == 0
    decreases |ms|
  {
    if |ms| > 0 {
      NoLiveMembersElsewhere(ms[..|ms| - 1], sid);
    }
  }

  predicate MemberIdTaken(ms: seq<Member>, id: string) {
    exists i :: 0 <= i < |ms| && ms[i].id == id
  }

  predicate UniqueMemberIds(ms: seq<Member>) {
    forall i, j :: 0 <= i < j < |ms| ==> ms[i].id != ms[j].id
  }

  /** `u` has a row in `sid` that is not withdrawn. */
  predicate IsMember(ms: seq<Member>, sid: SectionId, u: UserId) {
    exists i :: 0 <= i < |ms| && ms[i].sectionId == sid && ms[i].userId == u && ms[i].status != 0
  }

  /** `m` is an active (status 1) row of `u` in `sid`. */
  predicate Active(m: Member, sid: SectionId, u: UserId) {
    m.sectionId == sid && m.userId == u && m.status == 1
  }

  /** The first active row of `u` in `sid`: `memberRows[0]` of the `status = 1` lookup. */
  function FirstActive(ms: seq<Member>, sid: SectionId, u: UserId): (r: Option<nat>)
    ensures r.None? <==> !exists i :: 0 <= i < |ms| && Active(ms[i], sid, u)
    ensures r.Some? ==> r.value < |ms| && Active(ms[r.value], sid, u)
    decreases |ms|
  {
    if |ms| == 0 then None
    else
      var init := ms[..|ms| - 1];
      match FirstActive(init, sid, u)
      case Some(i) => Some(i)
      case None =>
        assert forall i :: 0 <= i < |init| ==> init[i] == ms[i];
        if Active(ms[|ms| - 1], sid, u) then Some(|ms| - 1) else None
  }

  /** `UPDATE section_members SET status = 0 WHERE id = ?` */
  function WithdrawById(ms: seq<Member>, id: string): (r: seq<Member>)
    ensures |r| == |ms|
    ensures forall i :: 0 <= i < |ms| ==> r[i] == if ms[i].id == id then ms[i].(status := 0) else ms[i]
    decreases |ms|
  {
    if |ms| == 0 then []
    else
      var last := ms[|ms| - 1];
      WithdrawById(ms[..|ms| - 1], id) + [if last.id == id then last.(status := 0) else last]
  }

  /** Withdrawing the one live row with a given id removes exactly that row from its section's count. */
  lemma {:induction false} LiveMembersWithdraw(ms: seq<Member>, i: int, sid: SectionId)
    requires UniqueMemberIds(ms) && 0 <= i < |ms| && ms[i].status != 0
    ensures LiveMembers(WithdrawById(ms, ms[i].id), sid) == LiveMembers(ms, sid) - (if ms[i].sectionId == sid then 1 else 0)
    decreases |ms|
  {
    var n := |ms| - 1;
    var id := ms[i].id;
    var w := WithdrawById(ms, id);
    var init := ms[..n];
    assert w[..n] == WithdrawById(init, id);
    if i == n {
      assert WithdrawById(init, id) == init;
    } else {
      assert init[i] == ms[i];
      LiveMembersWithdraw(init, i, sid);
    }
  }

  // ---------------------------------------------------------------- sections

  /** The live sections `u` created: `COUNT(*) ... WHERE creator_id = ? AND status != 0`. */
  function LiveSectionsOf(sections: map<SectionId, Section>, u: UserId): set<SectionId> {
    set sid | sid in sections && sections[sid].creatorId == u && sections[sid].status != 0
  }

  /** A live section already carries `name`. */
  predicate NameInUse(sections: map<SectionId, Section>, name: string) {
    exists sid :: sid in sections && sections[sid].name == name && sections[sid].status != 0
  }

  /**
   * The body of a section-create request; an absent permission is `None` and defaults to 1, while
   * `rules` has no default and is bound as it arrives.
   */
  datatype SectionRequest = SectionRequest(name: string, description: string,
                                           joinPermission: Option<int>, postPermission: Option<int>,
                                           rules: Field<string>)

  /**
   * Section create with generated ids `sid` (section) and `mid` (creator's row): refuses an empty
   * name or description, a creator who already has five live sections, and a name a live section
   * uses; a body without `rules` then fails at the insert. Otherwise the section starts with one
   * member, its creator, in role 3.
   */
  function CreateSection(s: Store, u: UserId, req: SectionRequest, sid: SectionId, mid: string, now: Timestamp)
    : (r: Result<Store, ForumError>)
    ensures r == Err(MissingFields) <==> req.name == "" || req.description == ""
    ensures r == Err(SectionLimit) <==>
      req.name != "" && req.description != "" && |LiveSectionsOf(s.sections, u)| >= MaxSections
    ensures r == Err(NameTaken) <==>
      req.name != "" && req.description != "" && |LiveSectionsOf(s.sections, u)| < MaxSections
      && NameInUse(s.sections, req.name)
    ensures r == Err(UnboundField) <==>
      req.name != "" && req.description != "" && |LiveSectionsOf(s.sections, u)| < MaxSections
      && !NameInUse(s.sections, req.name) && req.rules.Absent?
    ensures r.Ok? <==>
      req.name != "" && req.description != "" && |LiveSectionsOf(s.sections, u)| < MaxSections
      && !NameInUse(s.sections, req.name) && !req.rules.Absent?
      && sid !in s.sections && !MemberIdTaken(s.members, mid)
    ensures r == Err(DuplicateKey) <==>
      req.name != "" && req.description != "" && |LiveSectionsOf(s.sections, u)| < MaxSections
      && !NameInUse(s.sections, req.name) && !req.rules.Absent?
      && (sid in s.sections || MemberIdTaken(s.members, mid))
    ensures r.Ok? ==>
      && sid in r.value.sections && r.value.sections == s.sections[sid := r.value.sections[sid]]
      && r.value.sections[sid].memberCount == 1 && r.value.sections[sid].postCount == 0
      && r.value.sections[sid].status == 1 && r.value.sections[sid].creatorId == u
      && r.value.sections[sid].joinPermission == req.joinPermission.GetOr(1)
      && r.value.sections[sid].postPermission == req.postPermission.GetOr(1)
      && r.value.sections[sid].name == req.name && r.value.sections[sid].description == req.description
      && r.value.sections[sid].createdAt == now
      && r.value.members == s.members + [Member(mid, sid, u, 3, 1, now)]
      && r.value == s.(sections := r.value.sections, members := r.value.members)
  {
    if req.name == "" || req.description == "" then Err(MissingFields)
    else if |LiveSectionsOf(s.sections, u)| >= MaxSections then Err(SectionLimit)
    else if NameInUse(s.sections, req.name) then Err(NameTaken)
    else if req.rules.Absent? then Err(UnboundField)
    else if sid in s.sections || MemberIdTaken(s.members, mid) then Err(DuplicateKey)
    else
      var section := Section(req.name, req.description, u, req.joinPermission.GetOr(1), req.postPermission.GetOr(1),
                             1, 1, 0, now);
      Ok(s.(sections := s.sections[sid := section], members := s.members + [Member(mid, sid, u, 3, 1, now)]))
  }

  /** A successful create adds exactly one live section to its creator's tally, which stays within five. */
  lemma CreateSectionRespectsCap(s: Store, u: UserId, req: SectionRequest, sid: SectionId, mid: string, now: Timestamp)
    requires CreateSection(s, u, req, sid, mid, now).Ok?
    ensures var s' := CreateSection(s, u, req, sid, mid, now).value;
      && LiveSectionsOf(s'.sections, u) == LiveSectionsOf(s.sections, u) + {sid}
      && |LiveSectionsOf(s'.sections, u)| == |LiveSectionsOf(s.sections, u)| + 1 <= MaxSections
      && forall v :: v != u ==> LiveSectionsOf(s'.sections, v) == LiveSectionsOf(s.sections, v)
  {
    var s' := CreateSection(s, u, req, sid, mid, now).value;
    assert LiveSectionsOf(s'.sections, u) == LiveSectionsOf(s.sections, u) + {sid};
  }

  /**
   * Join: the section must exist and be live, the user must not already hold a live row, and the
   * section must not be invite-only (3); a body without `join_reason` then fails at the insert.
   * A review-gated section (2) records the row as pending, and either way the member count grows
   * by one.
   */
  function JoinSection(s: Store, u: UserId, sid: SectionId, joinReason: Field<string>, mid: string, now: Timestamp)
    : (r: Result<Store, ForumError>)
    ensures r == Err(SectionNotFound) <==> sid !in s.sections || s.sections[sid].status != 1
    ensures r == Err(AlreadyMember) <==>
      sid in s.sections && s.sections[sid].status == 1 && IsMember(s.members, sid, u)
    ensures r == Err(InviteOnly) <==>
      sid in s.sections && s.sections[sid].status == 1 && !IsMember(s.members, sid, u)
      && s.sections[sid].joinPermission == 3
    ensures r == Err(UnboundField) <==>
      sid in s.sections && s.sections[sid].status == 1 && !IsMember(s.members, sid, u)
      && s.sections[sid].joinPermission != 3 && joinReason.Absent?
    ensures r.Ok? <==>
      sid in s.sections && s.sections[sid].status == 1 && !IsMember(s.members, sid, u)
      && s.sections[sid].joinPermission != 3 && !joinReason.Absent? && !MemberIdTaken(s.members, mid)
    ensures r == Err(DuplicateKey) <==>
      sid in s.sections && s.sections[sid].status == 1 && !IsMember(s.members, sid, u)
      && s.sections[sid].joinPermission != 3 && !joinReason.Absent? && MemberIdTaken(s.members, mid)
    ensures r.Ok? ==>
      && r.value.members == s.members + [Member(mid, sid, u, 1, if s.sections[sid].joinPermission == 2 then 2 else 1, now)]
      && r.value.sections == s.sections[sid := s.sections[sid].(memberCount := s.sections[sid].memberCount + 1)]
      && r.value == s.(sections := r.value.sections, members := r.value.members)
  {
    if sid !in s.sections || s.sections[sid].status != 1 then Err(SectionNotFound)
    else
      var section := s.sections[sid];
      if IsMember(s.members, sid, u) then Err(AlreadyMember)
      else if section.joinPermission == 3 then Err(InviteOnly)
      else if joinReason.Absent? then Err(UnboundField)
      else if MemberIdTaken(s.members, mid) then Err(DuplicateKey)
      else
        var status := if section.joinPermission == 2 then 2 else 1;
        Ok(s.(members := s.members + [Member(mid, sid, u, 1, status, now)],
              sections := s.sections[sid := section.(memberCount := section.memberCount + 1)]))
  }

  /**
   * Leave: only an active row counts (a pending applicant cannot leave) and the creator cannot
   * leave; otherwise the row is withdrawn by its id and the member count drops by one. The
   * section's own status is not consulted.
   */
  function LeaveSection(s: Store, u: UserId, sid: SectionId): (r: Result<Store, ForumError>)
    ensures r == Err(NotMember) <==> !exists i :: 0 <= i < |s.members| && Active(s.members[i], sid, u)
    ensures r == Err(CreatorCannotLeave) <==>
      FirstActive(s.members, sid, u).Some? && s.members[FirstActive(s.members, sid, u).value].role == 3
    ensures r.Ok? <==>
      FirstActive(s.members, sid, u).Some? && s.members[FirstActive(s.members, sid, u).value].role != 3
    ensures r.Ok? ==>
      var i := FirstActive(s.members, sid, u).value;
      && r.value.members == WithdrawById(s.members, s.members[i].id)
      && r.value.sections == (if sid in s.sections then s.sections[sid := s.sections[sid].(memberCount := s.sections[sid].memberCount - 1)] else s.sections)
      && r.value == s.(sections := r.value.sections, members := r.value.members)
  {
    match FirstActive(s.members, sid, u)
    case None => Err(NotMember)
    case Some(i) =>
      var member := s.members[i];
      if member.role == 3 then Err(CreatorCannotLeave)
      else
        var sections := if sid in s.sections
                        then s.sections[sid := s.sections[sid].(memberCount := s.sections[sid].memberCount - 1)]
                        else s.sections;
        Ok(s.(members := WithdrawById(s.members, member.id), sections := sections))
  }

  /** Every section's `memberCount` counts its rows that are not withdrawn. */
  predicate MemberCountsMatch(s: Store) {
    forall sid :: sid in s.sections ==> s.sections[sid].memberCount == LiveMembers(s.members, sid)
  }

  /** Every member row belongs to an existing section. */
  predicate MembersReferToSections(s: Store) {
    forall i :: 0 <= i < |s.members| ==> s.members[i].sectionId in s.sections
  }

  /** No user holds two live rows in one section. */
  predicate SingleMembership(ms: seq<Member>) {
    forall i, j :: 0 <= i < j < |ms| && ms[i].status != 0 && ms[j].status != 0 ==>
      ms[i].sectionId != ms[j].sectionId || ms[i].userId != ms[j].userId
  }

  /** The membership bookkeeping that create, join and leave keep. */
  predicate SectionInvariant(s: Store) {
    UniqueMemberIds(s.members) && MemberCountsMatch(s) && MembersReferToSections(s) && SingleMembership(s.members)
  }

  lemma CreateSectionPreservesInvariant(s: Store, u: UserId, req: SectionRequest, sid: SectionId, mid: string, now: Timestamp)
    requires ForumInvariant(s)
    requires CreateSection(s, u, req, sid, mid, now).Ok?
    ensures ForumInvariant(CreateSection(s, u, req, sid, mid, now).value)
  {
    var s' := CreateSection(s, u, req, sid, mid, now).value;
    var m := Member(mid, sid, u, 3, 1, now);
    assert forall i :: 0 <= i < |s.members| ==> s.members[i].sectionId != sid;
    NoLiveMembersElsewhere(s.members, sid);
    forall x | x in s'.sections
      ensures s'.sections[x].memberCount == LiveMembers(s'.members, x)
    {
      LiveMembersAppend(s.members, m, x);
    }
  }

  lemma JoinSectionPreservesInvariant(s: Store, u: UserId, sid: SectionId, joinReason: Field<string>, mid: string, now: Timestamp)
    requires ForumInvariant(s)
    requires JoinSection(s, u, sid, joinReason, mid, now).Ok?
    ensures ForumInvariant(JoinSection(s, u, sid, joinReason, mid, now).value)
  {
    var s' := JoinSection(s, u, sid, joinReason, mid, now).value;
    var m := s'.members[|s.members|];
    assert s'.members == s.members + [m];
    forall x | x in s'.sections
      ensures s'.sections[x].memberCount == LiveMembers(s'.members, x)
    {
      LiveMembersAppend(s.members, m, x);
    }
    assert !IsMember(s.members, sid, u);
  }

  /** Withdrawing rows only lowers statuses, so ids, sections and single membership survive it. */
  lemma WithdrawKeepsRows(ms: seq<Member>, id: string)
    requires UniqueMemberIds(ms) && SingleMembership(ms)
    ensures var w := WithdrawById(ms, id);
      && UniqueMemberIds(w) && SingleMembership(w)
      && forall i :: 0 <= i < |ms| ==> w[i].sectionId == ms[i].sectionId
  {
  }

  lemma LeaveSectionPreservesInvariant(s: Store, u: UserId, sid: SectionId)
    requires ForumInvariant(s)
    requires LeaveSection(s, u, sid).Ok?
    ensures ForumInvariant(LeaveSection(s, u, sid).value)
  {
    var i := FirstActive(s.members, sid, u).value;
    var members' := WithdrawById(s.members, s.members[i].id);
    var sections' := if sid in s.sections
                     then s.sections[sid := s.sections[sid].(memberCount := s.sections[sid].memberCount - 1)]
                     else s.sections;
    var s' := s.(members := members', sections := sections');
    assert LeaveSection(s, u, sid).value == s';
    WithdrawKeepsRows(s.members, s.members[i].id);
    forall x | x in sections'
      ensures sections'[x].memberCount == LiveMembers(members', x)
    {
      LiveMembersWithdraw(s.members, i, x);
    }
    assert MemberCountsMatch(s');
    assert MembersReferToSections(s');
  }

  // ---------------------------------------------------------------- profiles

  /**
   * `UPDATE user_profiles SET <counter> = <counter> + 1, total_points = total_points + points
   * WHERE user_id = ?`: no row changes for a user without a profile.
   */
  function Credit(profiles: map<UserId, Profile>, u: UserId, points: int, posts: int, comments: int)
    : (r: map<UserId, Profile>)
    ensures r.Keys == profiles.Keys
    ensures u in profiles ==>
      r[u] == profiles[u].(totalPoints := profiles[u].totalPoints + points,
                           postsCount := profiles[u].postsCount + posts,
                           commentsCount := profiles[u].commentsCount + comments)
    ensures forall v :: v in profiles && v != u ==> r[v] == profiles[v]
  {
    if u in profiles then
      profiles[u := profiles[u].(totalPoints := profiles[u].totalPoints + points,
                                 postsCount := profiles[u].postsCount + posts,
                                 commentsCount := profiles[u].commentsCount + comments)]
    else profiles
  }

  // ---------------------------------------------------------------- posts

  /** `u` may publish in `sid`: the section is live, `u` is an active member, and the section's rule admits `u`'s role. */
  predicate MayPost(s: Store, u: UserId, sid: SectionId) {
    && sid in s.sections && s.sections[sid].status == 1
    && FirstActive(s.members, sid, u).Some?
    && !(s.sections[sid].postPermission == 2 && s.members[FirstActive(s.members, sid, u).value].role == 1)
  }

  /** The body of a post-create request; `video_url` and `link_url` have no default and are bound as they arrive. */
  datatype PostRequest = PostRequest(title: string, content: string, videoUrl: Field<string>, linkUrl: Field<string>)

  /** A field the post INSERT binds was left out of the body. */
  predicate LeavesOutPostField(req: PostRequest) {
    req.videoUrl.Absent? || req.linkUrl.Absent?
  }

  /**
   * Publishing a post with generated id `pid`: the title and content must be non-empty, the
   * section live, and the author an active member; a moderators-only section (2) refuses an
   * ordinary member (role 1), and a body without `video_url` or `link_url` then fails at the
   * insert. A reviewed section (3) stores the post as pending (2). The section's post count grows
   * by one and the author's profile gains a post and 3 points.
   */
  function CreatePost(s: Store, u: UserId, sid: SectionId, req: PostRequest, pid: PostId, now: Timestamp)
    : (r: Result<(Store, Post), ForumError>)
    ensures r == Err(MissingFields) <==> req.title == "" || req.content == ""
    ensures r == Err(SectionNotFound) <==>
      req.title != "" && req.content != "" && (sid !in s.sections || s.sections[sid].status != 1)
    ensures r == Err(NotPostingMember) <==>
      req.title != "" && req.content != "" && sid in s.sections && s.sections[sid].status == 1
      && FirstActive(s.members, sid, u).None?
    ensures r == Err(ModeratorsOnly) <==>
      req.title != "" && req.content != "" && sid in s.sections && s.sections[sid].status == 1
      && FirstActive(s.members, sid, u).Some?
      && s.sections[sid].postPermission == 2 && s.members[FirstActive(s.members, sid, u).value].role == 1
    ensures r == Err(UnboundField) <==>
      req.title != "" && req.content != "" && MayPost(s, u, sid) && LeavesOutPostField(req)
    ensures r.Ok? <==>
      req.title != "" && req.content != "" && MayPost(s, u, sid) && !LeavesOutPostField(req) && pid !in s.posts
    ensures r == Err(DuplicateKey) <==>
      req.title != "" && req.content != "" && MayPost(s, u, sid) && !LeavesOutPostField(req) && pid in s.posts
    ensures r.Ok? ==>
      var (s', post) := r.value;
      && pid !in s.posts && s'.posts == s.posts[pid := post]
      && post == Post(sid, u, req.title, req.content, req.videoUrl.Bound(), req.linkUrl.Bound(),
                      if s.sections[sid].postPermission == 3 then 2 else 1, 0, 0, now)
      && s'.sections == s.sections[sid := s.sections[sid].(postCount := s.sections[sid].postCount + 1)]
      && s'.profiles == Credit(s.profiles, u, PostReward, 1, 0)
      && s'.records == s.records
      && s' == s.(posts := s'.posts, sections := s'.sections, profiles := s'.profiles)
  {
    if req.title == "" || req.content == "" then Err(MissingFields)
    else if sid !in s.sections || s.sections[sid].status != 1 then Err(SectionNotFound)
    else
      var section := s.sections[sid];
      match FirstActive(s.members, sid, u)
      case None => Err(NotPostingMember)
      case Some(i) =>
        if section.postPermission == 2 && s.members[i].role == 1 then Err(ModeratorsOnly)
        else if LeavesOutPostField(req) then Err(UnboundField)
        else if pid in s.posts then Err(DuplicateKey)
        else
          var post := Post(sid, u, req.title, req.content, req.videoUrl.Bound(), req.linkUrl.Bound(),
                           if section.postPermission == 3 then 2 else 1, 0, 0, now);
          Ok((s.(posts := s.posts[pid := post],
                 sections := s.sections[sid := section.(postCount := section.postCount + 1)],
                 profiles := Credit(s.profiles, u, PostReward, 1, 0)),
              post))
  }

  // ---------------------------------------------------------------- likes

  /** The users with a like row on post `p`. */
  function Likers(likes: set<(PostId, UserId)>, p: PostId): set<UserId> {
    set pu | pu in likes && pu.0 == p :: pu.1
  }

  lemma LikersAfterInsert(likes: set<(PostId, UserId)>, p: PostId, u: UserId, q: PostId)
    ensures Likers(likes + {(p, u)}, q) == if q == p then Likers(likes, q) + {u} else Likers(likes, q)
  {
    if q == p {
      assert (p, u) in likes + {(p, u)};
    }
  }

  lemma LikersAfterDelete(likes: set<(PostId, UserId)>, p: PostId, u: UserId, q: PostId)
    ensures Likers(likes - {(p, u)}, q) == if q == p then Likers(likes, q) - {u} else Likers(likes, q)
  {
    if q == p {
      forall v | v in Likers(likes, q) - {u} ensures v in Likers(likes - {(p, u)}, q) {
        assert (p, v) in likes - {(p, u)};
      }
    } else {
      forall v | v in Likers(likes, q) ensures v in Likers(likes - {(p, u)}, q) {
        assert (q, v) in likes - {(p, u)};
      }
    }
  }

  /**
   * The like toggle on a published post: an existing like is deleted and the count lowered,
   * otherwise a like is inserted and the count raised. The reply says whether `u` now likes it.
   */
  function ToggleLike(s: Store, u: UserId, p: PostId): (r: Result<(Store, bool), ForumError>)
    ensures r.Err? <==> p !in s.posts || s.posts[p].status != 1
    ensures r.Err? ==> r.error == PostNotFound
    ensures r.Ok? ==>
      var (s', liked) := r.value;
      && (liked <==> (p, u) !in s.likes)
      && (liked <==> (p, u) in s'.likes)
      && s'.likes == (if liked then s.likes + {(p, u)} else s.likes - {(p, u)})
      && s'.posts == s.posts[p := s.posts[p].(likeCount := s.posts[p].likeCount + (if liked then 1 else -1))]
      && s' == s.(likes := s'.likes, posts := s'.posts)
  {
    if p !in s.posts || s.posts[p].status != 1 then Err(PostNotFound)
    else
      var post := s.posts[p];
      if (p, u) in s.likes then
        Ok((s.(likes := s.likes - {(p, u)}, posts := s.posts[p := post.(likeCount := post.likeCount - 1)]), false))
      else
        Ok((s.(likes := s.likes + {(p, u)}, posts := s.posts[p := post.(likeCount := post.likeCount + 1)]), true))
  }

  /** Toggling twice puts the store back exactly as it was, and the two replies differ. */
  lemma ToggleTwiceRestores(s: Store, u: UserId, p: PostId)
    requires ToggleLike(s, u, p).Ok?
    ensures var (s1, liked1) := ToggleLike(s, u, p).value;
      && ToggleLike(s1, u, p).Ok?
      && ToggleLike(s1, u, p).value.1 == !liked1
      && ToggleLike(s1, u, p).value.0 == s
  {
    var (s1, liked1) := ToggleLike(s, u, p).value;
    var s2 := ToggleLike(s1, u, p).value.0;
    if liked1 {
      assert s1.likes - {(p, u)} == s.likes;
    } else {
      assert s1.likes + {(p, u)} == s.likes;
    }
    assert s2.posts == s.posts;
  }

  // ---------------------------------------------------------------- comments

  /** The comments on post `p`. */
  function CommentsOn(cs: seq<Comment>, p: PostId): nat
    decreases |cs|
  {
    if |cs| == 0 then 0
    else CommentsOn(cs[..|cs| - 1], p) + (if cs[|cs| - 1].postId == p then 1 else 0)
  }

  lemma CommentsOnAppend(cs: seq<Comment>, c: Comment, p: PostId)
    ensures CommentsOn(cs + [c], p) == CommentsOn(cs, p) + (if c.postId == p then 1 else 0)
  {
    assert (cs + [c])[..|cs|] == cs;
  }

  /** Rows with the same posts in the same places give the same per-post counts. */
  lemma {:induction false} CommentsOnSamePosts(a: seq<Comment>, b: seq<Comment>, p: PostId)
    requires |a| == |b| && forall i :: 0 <= i < |a| ==> a[i].postId == b[i].postId
    ensures CommentsOn(a, p) == CommentsOn(b, p)
    decreases |a|
  {
    if |a| > 0 {
      CommentsOnSamePosts(a[..|a| - 1], b[..|b| - 1], p);
    }
  }

  lemma {:induction false} NoCommentsElsewhere(cs: seq<Comment>, p: PostId)
    requires forall i :: 0 <= i < |cs| ==> cs[i].postId != p
    ensures CommentsOn(cs, p) == 0
    decreases |cs|
  {
    if |cs| > 0 {
      NoCommentsElsewhere(cs[..|cs| - 1], p);
    }
  }

  predicate CommentIdTaken(cs: seq<Comment>, id: CommentId) {
    exists i :: 0 <= i < |cs| && cs[i].id == id
  }

  /** `UPDATE section_post_comments SET reply_count = reply_count + 1 WHERE id = ?` */
  function BumpReplies(cs: seq<Comment>, id: CommentId): (r: seq<Comment>)
    ensures |r| == |cs|
    ensures forall i :: 0 <= i < |cs| ==> r[i] == if cs[i].id == id then cs[i].(replyCount := cs[i].replyCount + 1) else cs[i]
  {
    seq(|cs|, i requires 0 <= i < |cs| => if cs[i].id == id then cs[i].(replyCount := cs[i].replyCount + 1) else cs[i])
  }

  /**
   * The body of a comment request; `parent_id` and `reply_to_user_id` have no default and are
   * bound as they arrive.
   */
  datatype CommentRequest = CommentRequest(content: string, parentId: Field<CommentId>, replyToUserId: Field<UserId>)

  /** A field the comment INSERT binds was left out of the body. */
  predicate LeavesOutCommentField(req: CommentRequest) {
    req.parentId.Absent? || req.replyToUserId.Absent?
  }

  /** `if (parent_id)`: the comment replies to another one, named by a non-empty id. */
  predicate IsReply(req: CommentRequest) {
    req.parentId.Given? && req.parentId.value != ""
  }

  /**
   * Commenting with generated id `cid` on a published post: the content must be non-empty, and a
   * body without `parent_id` or `reply_to_user_id` fails at the insert. The comment is inserted,
   * the post's comment count grows by one, a reply raises its parent's reply count, and the
   * author's profile gains a comment and 1 point.
   */
  function CreateComment(s: Store, u: UserId, p: PostId, req: CommentRequest, cid: CommentId, now: Timestamp)
    : (r: Result<(Store, Comment), ForumError>)
    ensures r == Err(MissingFields) <==> req.content == ""
    ensures r == Err(PostNotFound) <==> req.content != "" && (p !in s.posts || s.posts[p].status != 1)
    ensures r == Err(UnboundField) <==>
      req.content != "" && p in s.posts && s.posts[p].status == 1 && LeavesOutCommentField(req)
    ensures r.Ok? <==>
      req.content != "" && p in s.posts && s.posts[p].status == 1 && !LeavesOutCommentField(req)
      && !CommentIdTaken(s.comments, cid)
    ensures r == Err(DuplicateKey) <==>
      req.content != "" && p in s.posts && s.posts[p].status == 1 && !LeavesOutCommentField(req)
      && CommentIdTaken(s.comments, cid)
    ensures r.Ok? ==>
      var (s', c) := r.value;
      && c == Comment(cid, p, u, req.parentId.Bound(), req.replyToUserId.Bound(), req.content, 0, now)
      && s'.comments == (if IsReply(req) then BumpReplies(s.comments + [c], req.parentId.value) else s.comments + [c])
      && s'.posts == s.posts[p := s.posts[p].(commentCount := s.posts[p].commentCount + 1)]
      && s'.profiles == Credit(s.profiles, u, CommentReward, 0, 1)
      && s'.records == s.records
      && s' == s.(comments := s'.comments, posts := s'.posts, profiles := s'.profiles)
  {
    if req.content == "" then Err(MissingFields)
    else if p !in s.posts || s.posts[p].status != 1 then Err(PostNotFound)
    else if LeavesOutCommentField(req) then Err(UnboundField)
    else if CommentIdTaken(s.comments, cid) then Err(DuplicateKey)
    else
      var c := Comment(cid, p, u, req.parentId.Bound(), req.replyToUserId.Bound(), req.content, 0, now);
      var inserted := s.comments + [c];
      var comments := if IsReply(req) then BumpReplies(inserted, req.parentId.value) else inserted;
      var post := s.posts[p];
      Ok((s.(comments := comments,
             posts := s.posts[p := post.(commentCount := post.commentCount + 1)],
             profiles := Credit(s.profiles, u, CommentReward, 0, 1)),
          c))
  }

  // ---------------------------------------------------------------- post-side invariants

  /** Every post's `likeCount` is the number of its likes. */
  predicate LikeCountsMatch(s: Store) {
    forall p :: p in s.posts ==> s.posts[p].likeCount == |Likers(s.likes, p)|
  }

  /** Every like and every comment belongs to an existing post. */
  predicate PostRowsReferToPosts(s: Store) {
    && (forall pu :: pu in s.likes ==> pu.0 in s.posts)
    && (forall i :: 0 <= i < |s.comments| ==> s.comments[i].postId in s.posts)
  }

  /** Every post's `commentCount` is the number of its comments. */
  predicate CommentCountsMatch(s: Store) {
    forall p :: p in s.posts ==> s.posts[p].commentCount == CommentsOn(s.comments, p)
  }

  predicate PostInvariant(s: Store) {
    LikeCountsMatch(s) && CommentCountsMatch(s) && PostRowsReferToPosts(s)
  }

  /** All forum bookkeeping. */
  predicate ForumInvariant(s: Store) {
    SectionInvariant(s) && PostInvariant(s)
  }

  /** The like counts after one toggle of `(p, u)`, on the two tables the toggle writes. */
  lemma LikeCountsAfterToggle(likes: set<(PostId, UserId)>, posts: map<PostId, Post>, p: PostId, u: UserId)
    requires p in posts
    requires forall q :: q in posts ==> posts[q].likeCount == |Likers(likes, q)|
    ensures var liked := (p, u) !in likes;
      var likes' := if liked then likes + {(p, u)} else likes - {(p, u)};
      var posts' := posts[p := posts[p].(likeCount := posts[p].likeCount + (if liked then 1 else -1))];
      forall q :: q in posts' ==> posts'[q].likeCount == |Likers(likes', q)|
  {
    var liked := (p, u) !in likes;
    var likes' := if liked then likes + {(p, u)} else likes - {(p, u)};
    var posts' := posts[p := posts[p].(likeCount := posts[p].likeCount + (if liked then 1 else -1))];
    forall q | q in posts' ensures posts'[q].likeCount == |Likers(likes', q)| {
      if liked {
        LikersAfterInsert(likes, p, u, q);
        assert u !in Likers(likes, p);
      } else {
        LikersAfterDelete(likes, p, u, q);
        assert u in Likers(likes, p);
      }
    }
  }

  /** The store a toggle of `(p, u)` produces keeps the forum bookkeeping. */
  lemma ToggledStoreInvariant(s: Store, u: UserId, p: PostId)
    requires ForumInvariant(s) && p in s.posts
    ensures var liked := (p, u) !in s.likes;
      ForumInvariant(s.(likes := if liked then s.likes + {(p, u)} else s.likes - {(p, u)},
                        posts := s.posts[p := s.posts[p].(likeCount := s.posts[p].likeCount + (if liked then 1 else -1))]))
  {
    var liked := (p, u) !in s.likes;
    var likes' := if liked then s.likes + {(p, u)} else s.likes - {(p, u)};
    var posts' := s.posts[p := s.posts[p].(likeCount := s.posts[p].likeCount + (if liked then 1 else -1))];
    var s' := s.(likes := likes', posts := posts');
    LikeCountsAfterToggle(s.likes, s.posts, p, u);
    assert LikeCountsMatch(s');
    assert forall q :: q in posts' ==> posts'[q].commentCount == s.posts[q].commentCount;
    assert CommentCountsMatch(s');
    assert PostRowsReferToPosts(s');
  }

  lemma ToggleLikePreservesInvariant(s: Store, u: UserId, p: PostId)
    requires ForumInvariant(s)
    requires ToggleLike(s, u, p).Ok?
    ensures ForumInvariant(ToggleLike(s, u, p).value.0)
  {
    ToggledStoreInvariant(s, u, p);
  }

  lemma CreatePostPreservesInvariant(s: Store, u: UserId, sid: SectionId, req: PostRequest, pid: PostId, now: Timestamp)
    requires ForumInvariant(s)
    requires CreatePost(s, u, sid, req, pid, now).Ok?
    ensures ForumInvariant(CreatePost(s, u, sid, req, pid, now).value.0)
  {
    var s' := CreatePost(s, u, sid, req, pid, now).value.0;
    assert Likers(s.likes, pid) == {};
    assert forall i :: 0 <= i < |s.comments| ==> s.comments[i].postId != pid;
    NoCommentsElsewhere(s.comments, pid);
    assert MemberCountsMatch(s');
  }

  lemma CreateCommentPreservesInvariant(s: Store, u: UserId, p: PostId, req: CommentRequest, cid: CommentId, now: Timestamp)
    requires ForumInvariant(s)
    requires CreateComment(s, u, p, req, cid, now).Ok?
    ensures ForumInvariant(CreateComment(s, u, p, req, cid, now).value.0)
  {
    var (s', c) := CreateComment(s, u, p, req, cid, now).value;
    var inserted := s.comments + [c];
    CommentsOnSamePosts(s'.comments, inserted, p);
    forall q | q in s'.posts ensures s'.posts[q].commentCount == CommentsOn(s'.comments, q) {
      CommentsOnSamePosts(s'.comments, inserted, q);
      CommentsOnAppend(s.comments, c, q);
    }
    forall i | 0 <= i < |s'.comments| ensures s'.comments[i].postId in s'.posts {
      assert s'.comments[i].postId == inserted[i].postId;
    }
  }

  // ---------------------------------------------------------------- rewards and the ledger

  /**
   * Publishing credits 3 points with no ledger entry, so a user whose ledger replayed to their
   * balance no longer does afterwards.
   */
  lemma PostRewardBreaksLedger(s: Store, u: UserId, sid: SectionId, req: PostRequest, pid: PostId, now: Timestamp)
    requires Ledger.Consistent(s, u)
    requires CreatePost(s, u, sid, req, pid, now).Ok?
    ensures var s' := CreatePost(s, u, sid, req, pid, now).value.0;
      Balance(s', u) == Balance(s, u) + PostReward && !Ledger.Consistent(s', u)
  {
  }

  /** Commenting credits 1 point with no ledger entry, with the same effect. */
  lemma CommentRewardBreaksLedger(s: Store, u: UserId, p: PostId, req: CommentRequest, cid: CommentId, now: Timestamp)
    requires Ledger.Consistent(s, u)
    requires CreateComment(s, u, p, req, cid, now).Ok?
    ensures var s' := CreateComment(s, u, p, req, cid, now).value.0;
      Balance(s', u) == Balance(s, u) + CommentReward && !Ledger.Consistent(s', u)
  {
  }

  /** Membership and likes touch neither profiles nor records, so they keep every user's ledger. */
  lemma MembershipAndLikesKeepLedger(s: Store, s': Store)
    requires s'.profiles == s.profiles && s'.records == s.records
    requires Ledger.Invariant(s)
    ensures Ledger.Invariant(s')
  {
    forall v | v in s'.profiles ensures Ledger.Consistent(s', v) {
      assert Ledger.Consistent(s, v);
    }
  }
}

=== FILE: js_text.dfy ===
/**
 * The few JavaScript string operations the endpoints rely on: `trim()`, the UTF-16
 * `length` of a string, `includes`, and the decimal rendering of a number inside a
 * template literal.
 */
module JsText {

  /** Code points removed by `String.prototype.trim`: ECMAScript WhiteSpace and LineTerminator. */
  predicate IsTrimmable(c: char) {
    || c == '\t' || c == '\n' || c == '\U{000B}' || c == '\U{000C}' || c == '\r'
    || c == ' ' || c == '\U{00A0}' || c == '\U{1680}'
    || ('\U{2000}' <= c <= '\U{200A}')
    || c == '\U{2028}' || c == '\U{2029}' || c == '\U{202F}' || c == '\U{205F}'
    || c == '\U{3000}' || c == '\U{FEFF}'
  }

  /** `s.trimStart()` */
  function TrimStart(s: string): string {
    if |s| > 0 && IsTrimmable(s[0]) then TrimStart(s[1..]) else s
  }

  /** `s.trimEnd()` */
  function TrimEnd(s: string): string {
    if |s| > 0 && IsTrimmable(s[|s| - 1]) then TrimEnd(s[..|s| - 1]) else s
  }

  /** `s.trim()` */
  function Trim(s: string): string {
    TrimEnd(TrimStart(s))
  }

  /** Every character of `s` is white space (vacuously true of ""). */
  predicate Blank(s: string) {
    forall i :: 0 <= i < |s| ==> IsTrimmable(s[i])
  }

  lemma {:induction false} TrimStartEmptyIffBlank(s: string)
    ensures |TrimStart(s)| == 0 <==> Blank(s)
  {
    if |s| > 0 && IsTrimmable(s[0]) {
      TrimStartEmptyIffBlank(s[1..]);
      assert Blank(s) <==> Blank(s[1..]) by {
        if Blank(s[1..]) {
          forall i | 0 <= i < |s| ensures IsTrimmable(s[i]) {
            if i > 0 { assert s[i] == s[1..][i - 1]; }
          }
        }
      }
    } else if |s| > 0 {
      assert !IsTrimmable(s[0]);
    }
  }

  lemma {:induction false} TrimEndKeepsNonBlank(s: string)
    requires |s| > 0
    ensures |TrimEnd(s)| == 0 ==> Blank(s)
  {
    if IsTrimmable(s[|s| - 1]) {
      var p := s[..|s| - 1];
      if |p| > 0 {
        TrimEndKeepsNonBlank(p);
      }
      if |TrimEnd(s)| == 0 {
        forall i | 0 <= i < |s| ensures IsTrimmable(s[i]) {
          if i < |s| - 1 { assert s[i] == p[i]; }
        }
      }
    }
  }

  lemma {:induction false} TrimEndOfBlank(s: string)
    requires Blank(s)
    ensures |TrimEnd(s)| == 0
  {
    if |s| > 0 {
      var p := s[..|s| - 1];
      assert Blank(p) by {
        forall i | 0 <= i < |p| ensures IsTrimmable(p[i]) { assert p[i] == s[i]; }
      }
      TrimEndOfBlank(p);
    }
  }

  /** `s.trim().length === 0` holds exactly of the strings made only of white space. */
  lemma TrimEmptyIffBlank(s: string)
    ensures |Trim(s)| == 0 <==> Blank(s)
  {
    var t := TrimStart(s);
    TrimStartEmptyIffBlank(s);
    if |t| > 0 {
      TrimEndKeepsNonBlank(t);
      // t starts with a non-white-space character, so it is not blank
      assert !IsTrimmable(t[0]) by { TrimStartStopsAtContent(s); }
    } else {
      TrimEndOfBlank(t);
    }
  }

  lemma {:induction false} TrimStartStopsAtContent(s: string)
    requires |TrimStart(s)| > 0
    ensures !IsTrimmable(TrimStart(s)[0])
  {
    if |s| > 0 && IsTrimmable(s[0]) {
      TrimStartStopsAtContent(s[1..]);
    }
  }

  /** The JavaScript `length` of a string: its number of UTF-16 code units. */
  function Utf16Length(s: string): (n: nat)
    ensures |s| <= n <= 2 * |s|
  {
    if |s| == 0 then 0
    else (if s[0] as int >= 0x1_0000 then 2 else 1) + Utf16Length(s[1..])
  }

  /** `s.includes(t)` */
  function Contains(s: string, t: string): bool
    decreases |s|
  {
    if |s| < |t| then false
    else s[..|t|] == t || Contains(s[1..], t)
  }

  /** `t` occurs in `s` starting at position `i`. */
  predicate OccursAt(s: string, t: string, i: int) {
    0 <= i && i + |t| <= |s| && s[i..i + |t|] == t
  }

  /** `Contains` is the substring relation: it holds exactly when `t` occurs somewhere in `s`. */
  lemma {:induction false} ContainsIffOccurs(s: string, t: string)
    ensures Contains(s, t) <==> exists i :: OccursAt(s, t, i)
    decreases |s|
  {
    if |s| >= |t| && s[..|t|] != t {
      assert !OccursAt(s, t, 0);
      assert |s| > 0;
      ContainsIffOccurs(s[1..], t);
      if Contains(s[1..], t) {
        var i :| OccursAt(s[1..], t, i);
        assert s[i + 1..i + 1 + |t|] == s[1..][i..i + |t|];
        assert OccursAt(s, t, i + 1);
      }
      if exists i :: OccursAt(s, t, i) {
        var i :| OccursAt(s, t, i);
        assert s[1..][i - 1..i - 1 + |t|] == s[i..i + |t|];
        assert OccursAt(s[1..], t, i - 1);
      }
    } else if |s| >= |t| {
      assert OccursAt(s, t, 0);
    }
  }

  /** The decimal digits of a natural number, as `String(n)` renders them. */
  function NatDigits(n: nat): string
    decreases n
  {
    var d := ['0' + (n % 10) as char];
    if n < 10 then d else NatDigits(n / 10) + d
  }

  /** `${n}` for an integer `n`. */
  function Decimal(n: int): string {
    if n < 0 then "-" + NatDigits(-n) else NatDigits(n)
  }

  /** A decimal rendering uses only the digits and the minus sign. */
  lemma {:induction false} DecimalAlphabet(n: int)
    ensures forall c :: c in Decimal(n) ==> c == '-' || '0' <= c <= '9'
  {
    if n < 0 {
      NatDigitsAlphabet(-n);
    } else {
      NatDigitsAlphabet(n);
    }
  }

  lemma {:induction false} NatDigitsAlphabet(n: nat)
    ensures forall c :: c in NatDigits(n) ==> '0' <= c <= '9'
    decreases n
  {
    if n >= 10 {
      NatDigitsAlphabet(n / 10);
    }
  }

  /** A string cannot contain a text that has a character it lacks. */
  lemma AbsentCharNotContained(s: string, t: string, c: char)
    requires c in t && c !in s
    ensures !Contains(s, t)
  {
    ContainsIffOccurs(s, t);
  }

  /** `t` occurs at `i` when the characters from `i` on are those of `t`, one by one. */
  lemma OccursAtByChars(s: string, t: string, i: int)
    requires 0 <= i && i + |t| <= |s|
    requires forall k :: 0 <= k < |t| ==> s[i + k] == t[k]
    ensures OccursAt(s, t, i)
  {
    assert s[i..i + |t|] == t;
  }

  /** A string contains any text occurring inside it. */
  lemma ContainedAt(s: string, t: string, i: int)
    requires OccursAt(s, t, i)
    ensures Contains(s, t)
  {
    ContainsIffOccurs(s, t);
  }
}

=== FILE: ledger.dfy ===
/**
 * The points ledger: `points_records` as an append-only sequence and the profile balance
 * it is meant to explain.  Replaying a user's records in creation order, summing the
 * signed points, must reproduce every `balance_after` snapshot and the current
 * `total_points`.  Check-in, manual add and task publishing write through `Post`,
 * which keeps that true; the forum rewards do not (see `Forum`).
 */
module Ledger {
  import opened Wrappers
  import opened Store

  /** The change a record makes to its user's balance. */
  function Signed(r: PointsRecord): int {
    if r.kind == Earn then r.points else -r.points
  }

  /** The balance of `u` after record `r`, starting from `b`. Records of other users change nothing. */
  function Step(r: PointsRecord, u: UserId, b: int): int {
    if r.userId == u then b + Signed(r) else b
  }

  /** The balance of `u` after replaying `rs` in order from `start`. */
  function Replay(rs: seq<PointsRecord>, u: UserId, start: int): int
    decreases |rs|
  {
    if |rs| == 0 then start else Replay(rs[1..], u, Step(rs[0], u, start))
  }

  /** Every record of `u` in `rs` carries, as `balanceAfter`, the running balance it produces. */
  predicate SnapshotsAgree(rs: seq<PointsRecord>, u: UserId, start: int)
    decreases |rs|
  {
    |rs| == 0 ||
    ((rs[0].userId == u ==> rs[0].balanceAfter == start + Signed(rs[0]))
     && SnapshotsAgree(rs[1..], u, Step(rs[0], u, start)))
  }

  /** The ledger of `u` explains the profile balance of `u` (a fresh profile starts at 0). */
  predicate Consistent(s: Store, u: UserId) {
    && u in s.profiles
    && SnapshotsAgree(s.records, u, 0)
    && Replay(s.records, u, 0) == s.profiles[u].totalPoints
  }

  /** Every profile is explained by the ledger. */
  predicate Invariant(s: Store) {
    forall u :: u in s.profiles ==> Consistent(s, u)
  }

  lemma {:induction false} ReplayAppend(rs: seq<PointsRecord>, r: PointsRecord, u: UserId, start: int)
    ensures Replay(rs + [r], u, start) == Step(r, u, Replay(rs, u, start))
    decreases |rs|
  {
    if |rs| > 0 {
      assert (rs + [r])[1..] == rs[1..] + [r];
      ReplayAppend(rs[1..], r, u, Step(rs[0], u, start));
    }
  }

  lemma {:induction false} SnapshotsAppend(rs: seq<PointsRecord>, r: PointsRecord, u: UserId, start: int)
    ensures SnapshotsAgree(rs + [r], u, start) <==>
      SnapshotsAgree(rs, u, start) && (r.userId == u ==> r.balanceAfter == Replay(rs, u, start) + Signed(r))
    decreases |rs|
  {
    if |rs| > 0 {
      assert (rs + [r])[1..] == rs[1..] + [r];
      SnapshotsAppend(rs[1..], r, u, Step(rs[0], u, start));
    } else {
      assert ([] + [r])[1..] == [];
    }
  }

  /**
   * One ledger posting as the endpoints write it: read the balance (`|| 0`), add the signed
   * amount, write the new balance to the profile (no row changes when there is no profile),
   * and append one record whose `balanceAfter` is the new balance. Nothing else changes.
   */
  function Post(s: Store, u: UserId, kind: RecordType, sourceType: string, sourceId: Option<string>,
                points: int, title: string, description: Option<string>, now: Timestamp): (s': Store)
    ensures |s'.records| == |s.records| + 1 && s'.records[..|s.records|] == s.records
    ensures s'.records[|s.records|] ==
      PointsRecord(u, kind, sourceType, sourceId, points, Balance(s, u) + (if kind == Earn then points else -points),
                   title, description, now)
    ensures u in s.profiles ==> Balance(s', u) == Balance(s, u) + (if kind == Earn then points else -points)
    ensures s'.profiles.Keys == s.profiles.Keys
    ensures forall v :: v in s.profiles && v != u ==> s'.profiles[v] == s.profiles[v]
    ensures u in s.profiles ==> s'.profiles[u] == s.profiles[u].(totalPoints := Balance(s', u))
    ensures s' == s.(profiles := s'.profiles, records := s'.records)
  {
    var rec := PointsRecord(u, kind, sourceType, sourceId, points, 0, title, description, now);
    var nb := Balance(s, u) + Signed(rec);
    s.(profiles := SetBalance(s.profiles, u, nb),
       records := s.records + [rec.(balanceAfter := nb)])
  }

  /** A posting keeps every profile explained by the ledger. */
  lemma PostPreservesInvariant(s: Store, u: UserId, kind: RecordType, sourceType: string, sourceId: Option<string>,
                               points: int, title: string, description: Option<string>, now: Timestamp)
    requires Invariant(s)
    ensures Invariant(Post(s, u, kind, sourceType, sourceId, points, title, description, now))
  {
    var s' := Post(s, u, kind, sourceType, sourceId, points, title, description, now);
    var r := s'.records[|s.records|];
    assert s'.records == s.records + [r];
    forall v | v in s'.profiles ensures Consistent(s', v) {
      assert Consistent(s, v);
      ReplayAppend(s.records, r, v, 0);
      SnapshotsAppend(s.records, r, v, 0);
    }
  }

  /** A user whose profile was just registered (balance 0) and who has no records is explained by the ledger. */
  lemma {:induction false} NoRecordsConsistent(rs: seq<PointsRecord>, u: UserId, start: int)
    requires forall i :: 0 <= i < |rs| ==> rs[i].userId != u
    ensures SnapshotsAgree(rs, u, start) && Replay(rs, u, start) == start
    decreases |rs|
  {
    if |rs| > 0 {
      NoRecordsConsistent(rs[1..], u, start);
    }
  }
}

=== FILE: paging.dfy ===
/**
 * Offset pagination as every list endpoint computes it: `offset = (page - 1) * limit`,
 * `LIMIT limit OFFSET offset`, and `totalPages = Math.ceil(total / limit)`.
 */
module Paging {

  /** `(page - 1) * limit`: the number of rows the requested page skips. */
  function Offset(page: int, limit: int): (o: int)
    ensures page >= 1 && limit >= 0 ==> o >= 0
    ensures limit > 0 ==> (o >= 0 <==> page >= 1)
  {
    (page - 1) * limit
  }

  /** A page count as JSON renders it: `Math.ceil(total / 0)` is Infinity or NaN, both sent as null. */
  datatype PageCount = Pages(n: int) | NoCount

  /** `Math.ceil(t / l)` for a positive divisor. */
  function CeilDiv(t: nat, l: int): (q: nat)
    requires l > 0
    ensures (q - 1) * l < t <= q * l
  {
    var a := t / l;
    assert t == a * l + t % l;
    if t % l == 0 then a else a + 1
  }

  /** `Math.ceil(total / limit)` over the integers the endpoints pass. */
  function TotalPages(total: nat, limit: int): (r: PageCount)
    ensures limit > 0 ==> r.Pages? && (r.n - 1) * limit < total <= r.n * limit
    ensures limit < 0 ==> r.Pages? && r.n <= 0
    ensures r.NoCount? <==> limit == 0
  {
    if limit > 0 then Pages(CeilDiv(total, limit))
    else if limit < 0 then Pages(-(total / -limit))
    else NoCount
  }

  /** `LIMIT limit OFFSET offset` applied to an ordered result. */
  function Window<T>(items: seq<T>, offset: nat, limit: nat): (w: seq<T>)
    ensures |w| <= limit
    ensures forall i :: 0 <= i < |w| ==> offset + i < |items| && w[i] == items[offset + i]
    ensures |w| == if offset >= |items| then 0 else (if offset + limit <= |items| then limit else |items| - offset)
  {
    var lo := if offset <= |items| then offset else |items|;
    var hi := if offset + limit <= |items| then offset + limit else |items|;
    items[lo..hi]
  }

  /**
   * The pages partition the result: item `i` of `total` appears on page `i / limit + 1`, at
   * position `i % limit`, and that page is within the reported page count.
   */
  lemma ItemOnItsPage<T>(items: seq<T>, limit: int, i: int)
    requires limit > 0 && 0 <= i < |items|
    ensures var page := i / limit + 1;
      && 1 <= page && page <= TotalPages(|items|, limit).n
      && Offset(page, limit) >= 0
      && var w := Window(items, Offset(page, limit), limit);
         i % limit < |w| && w[i % limit] == items[i]
  {
    var a := i / limit;
    var b := i % limit;
    var q := TotalPages(|items|, limit).n;
    assert i == a * limit + b;
    assert Offset(a + 1, limit) == a * limit;
    MulLessCancel(a, q, limit);
    var w := Window(items, a * limit, limit);
    assert b < |w|;
    assert w[b] == items[a * limit + b];
  }

  lemma MulLessCancel(x: int, y: int, l: int)
    requires l > 0 && x * l < y * l
    ensures x < y
  {
  }
}

=== FILE: points.dfy ===
/** `POST /points/add`: a manual earn posting for the calling user. */
module Points {
  import opened Wrappers
  import opened Store
  import Ledger

  /**
   * The request body; an absent `points` is `None`, an absent `source_type` or `title` is "".
   * `source_id` and `description` have no default and are bound as they arrive.
   */
  datatype AddPointsRequest = AddPointsRequest(
    points: Option<int>, sourceType: string, sourceId: Field<string>, title: string, description: Field<string>)

  datatype AddPointsReply = AddPointsReply(points: int, totalPoints: int)

  /**
   * `MissingFields` is the 400 answer; `UnboundField` is the driver's refusal of a body field that
   * was left out, which rolls the transaction back and is answered 500.
   */
  datatype PointsError = MissingFields | UnboundField

  /** A field the INSERT binds was left out of the body. */
  predicate LeavesOutBoundField(req: AddPointsRequest) {
    req.sourceId.Absent? || req.description.Absent?
  }

  /** `!points || !source_type || !title`: a missing or zero amount, or an empty source type or title. */
  predicate Incomplete(req: AddPointsRequest) {
    req.points == None || req.points == Some(0) || req.sourceType == "" || req.title == ""
  }

  /**
   * Adds `points` (which may be negative: the endpoint does not check the sign) to the balance of
   * `u` and appends one type-1 record carrying the caller's source type, source id, title and
   * description. A body without `source_id` or `description` fails at the record insert, after the
   * balance update, so the rollback leaves the store as it was.
   */
  function AddPoints(s: Store, u: UserId, req: AddPointsRequest, now: Timestamp)
    : (r: Result<(Store, AddPointsReply), PointsError>)
    ensures r == Err(MissingFields) <==> Incomplete(req)
    ensures r == Err(UnboundField) <==> !Incomplete(req) && LeavesOutBoundField(req)
    ensures r.Ok? ==>
      var (s', reply) := r.value;
      && reply.points == req.points.value
      && reply.totalPoints == Balance(s, u) + req.points.value
      && |s'.records| == |s.records| + 1 && s'.records[..|s.records|] == s.records
      && s'.records[|s.records|].userId == u
      && s'.records[|s.records|].kind == Earn
      && s'.records[|s.records|].sourceType == req.sourceType
      && s'.records[|s.records|].sourceId == req.sourceId.Bound()
      && s'.records[|s.records|].title == req.title
      && s'.records[|s.records|].description == req.description.Bound()
      && s'.records[|s.records|].points == req.points.value
      && s'.records[|s.records|].balanceAfter == reply.totalPoints
      && (u in s.profiles ==> Balance(s', u) == reply.totalPoints)
      && (u in s.profiles ==> u in s'.profiles && s'.profiles[u] == s.profiles[u].(totalPoints := reply.totalPoints))
      && s'.profiles.Keys == s.profiles.Keys
      && (forall v :: v in s.profiles && v != u ==> s'.profiles[v] == s.profiles[v])
      && s' == s.(profiles := s'.profiles, records := s'.records)
  {
    if Incomplete(req) then Err(MissingFields)
    else if LeavesOutBoundField(req) then Err(UnboundField)
    else
      var p := req.points.value;
      Ok((Ledger.Post(s, u, Earn, req.sourceType, req.sourceId.Bound(), p, req.title, req.description.Bound(), now),
          AddPointsReply(p, Balance(s, u) + p)))
  }

  /** A manual addition keeps every profile balance explained by the points ledger. */
  lemma AddPointsPreservesLedger(s: Store, u: UserId, req: AddPointsRequest, now: Timestamp)
    requires Ledger.Invariant(s)
    requires AddPoints(s, u, req, now).Ok?
    ensures Ledger.Invariant(AddPoints(s, u, req, now).value.0)
  {
    Ledger.PostPreservesInvariant(s, u, Earn, req.sourceType, req.sourceId.Bound(), req.points.value,
                                  req.title, req.description.Bound(), now);
  }
}

=== FILE: store.dfy ===
/**
 * The relational store the endpoints read and write, as one immutable value.
 *
 * Tables that are scanned in order or counted are sequences of rows (a row's
 * position is its identity); tables that are only looked up by key are maps.
 * Generated uuids are supplied by the caller; the integer columns are unbounded.
 */
module Store {
  import opened Wrappers

  type UserId = string
  type TaskId = string
  type SectionId = string
  type PostId = string
  type CommentId = string

  /** A calendar day number; the day before `d` is `d - 1`. */
  type Day = int

  /** A point in time, comparable with `<=`. */
  type Timestamp = int

  /** `user_profiles`: the points balance and the activity counters of one user. */
  datatype Profile = Profile(totalPoints: int, level: int, postsCount: int, commentsCount: int)

  /** The `type` column of `points_records`: 1 earns points, 2 spends them. */
  datatype RecordType = Earn | Spend {
    function Code(): int {
      match this
      case Earn => 1
      case Spend => 2
    }
  }

  /** `points_records`: one immutable ledger entry. */
  datatype PointsRecord = PointsRecord(
    userId: UserId,
    kind: RecordType,
    sourceType: string,
    sourceId: Option<string>,
    points: int,
    balanceAfter: int,
    title: string,
    description: Option<string>,
    createdAt: Timestamp)

  /** `daily_checkins`: at most one per (user, day), which is the key of the map holding them. */
  datatype CheckinRecord = CheckinRecord(
    id: string,
    userId: UserId,
    checkinDate: Day,
    consecutiveDays: int,
    pointsEarned: int,
    createdAt: Timestamp)

  /** `tasks`: one task-board entry. The flag columns hold 0 or 1; `requirements` is JSON text. */
  datatype Task = Task(
    id: TaskId,
    categoryId: int,
    title: string,
    description: string,
    requirements: Option<string>,
    rewardType: int,
    rewardValue: int,
    maxParticipants: Option<int>,
    currentParticipants: int,
    difficultyLevel: int,
    endTime: Option<Timestamp>,
    isRecurring: int,
    locationRequired: int,
    imageRequired: int,
    status: int,
    createdBy: UserId,
    createdAt: Timestamp)

  /** `user_tasks`: one join of a task; status 0 means withdrawn. */
  datatype Participation = Participation(
    id: string,
    taskId: TaskId,
    userId: UserId,
    status: int,
    progress: int,
    startedAt: Timestamp)

  /** `sections`: a forum. `joinPermission` 3 is invite-only, 2 needs review; `status` 1 is live. */
  datatype Section = Section(
    name: string,
    description: string,
    creatorId: UserId,
    joinPermission: int,
    postPermission: int,
    status: int,
    memberCount: int,
    postCount: int,
    createdAt: Timestamp)

  /** `section_members`: role 3 is the creator, 1 an ordinary member; status 0 withdrawn, 1 active, 2 pending. */
  datatype Member = Member(
    id: string,
    sectionId: SectionId,
    userId: UserId,
    role: int,
    status: int,
    joinedAt: Timestamp)

  /** `section_posts`: status 1 is published, 2 awaits review. */
  datatype Post = Post(
    sectionId: SectionId,
    userId: UserId,
    title: string,
    content: string,
    videoUrl: Option<string>,
    linkUrl: Option<string>,
    status: int,
    likeCount: int,
    commentCount: int,
    createdAt: Timestamp)

  /** `section_post_comments` */
  datatype Comment = Comment(
    id: CommentId,
    postId: PostId,
    userId: UserId,
    parentId: Option<CommentId>,
    replyToUserId: Option<UserId>,
    content: string,
    replyCount: int,
    createdAt: Timestamp)

  /** The whole database. `likes` holds the (post, user) key of every `section_post_likes` row. */
  datatype Store = Store(
    profiles: map<UserId, Profile>,
    checkins: map<(UserId, Day), CheckinRecord>,
    records: seq<PointsRecord>,
    tasks: seq<Task>,
    userTasks: seq<Participation>,
    sections: map<SectionId, Section>,
    members: seq<Member>,
    posts: map<PostId, Post>,
    comments: seq<Comment>,
    likes: set<(PostId, UserId)>)

  /** `profile?.total_points || 0`: the balance the endpoints read, 0 for a user without a profile. */
  function Balance(s: Store, u: UserId): int {
    if u in s.profiles then s.profiles[u].totalPoints else 0
  }

  /**
   * `UPDATE user_profiles SET total_points = b WHERE user_id = u`: changes the profile of `u`
   * when there is one, and matches no row otherwise.
   */
  function SetBalance(profiles: map<UserId, Profile>, u: UserId, b: int): (r: map<UserId, Profile>)
    ensures r.Keys == profiles.Keys
    ensures u in profiles ==> r[u].totalPoints == b
    ensures forall v :: v in profiles && v != u ==> r[v] == profiles[v]
  {
    if u in profiles then profiles[u := profiles[u].(totalPoints := b)] else profiles
  }
}

=== FILE: task_controller.dfy ===
/**
 * The HTTP layer of `api/TaskModule.js` (class `TaskController`): the defaults it fills into the
 * service requests and the way it turns service errors into status codes by matching message text.
 */
module TaskController {
  import opened Wrappers
  import opened Store
  import JsText
  import TaskModule
  import TaskListing

  /**
   * `req.body` of a create-task request; an absent defaulted number is `None`, an absent text is
   * "". The fields passed on without a default keep the difference between left out and `null`.
   */
  datatype CreateTaskBody = CreateTaskBody(
    title: string,
    description: string,
    categoryId: Option<int>,
    requirements: Field<string>,
    rewardType: Option<int>,
    rewardValue: Option<int>,
    maxParticipants: Field<int>,
    difficultyLevel: Option<int>,
    endTime: Field<Timestamp>,
    isRecurring: bool,
    locationRequired: bool,
    imageRequired: bool,
    optional: TaskModule.OptionalColumns)

  /** `x || d` on an optional number: absent and 0 both fall back to `d`. */
  function OrDefault(x: Option<int>, d: int): int {
    if x.Some? && x.value != 0 then x.value else d
  }

  /** The service request the controller builds from the body and the authenticated user. */
  function BuildRequest(body: CreateTaskBody, u: UserId): TaskModule.CreateTaskRequest {
    TaskModule.CreateTaskRequest(
      body.title, body.description, OrDefault(body.categoryId, 1),
      Given(if body.requirements.Given? then body.requirements.value else "[]"),
      OrDefault(body.rewardType, 1), OrDefault(body.rewardValue, 10), body.maxParticipants,
      OrDefault(body.difficultyLevel, 1), body.endTime,
      body.isRecurring, body.locationRequired, body.imageRequired, u, body.optional)
  }

  /**
   * The controller's defaults: an absent or zero reward type means points, an absent or zero
   * reward value means 10, an absent or zero category or difficulty means 1, and a missing
   * requirements list is the empty one; a supplied non-zero value, and every field without a
   * default, is passed through unchanged, and the creator is the authenticated user.
   */
  lemma ControllerDefaults(body: CreateTaskBody, u: UserId)
    ensures var req := BuildRequest(body, u);
      && (body.rewardType.None? || body.rewardType == Some(0) ==> req.rewardType == TaskModule.PointsReward)
      && (body.rewardValue.None? || body.rewardValue == Some(0) ==> req.rewardValue == 10)
      && (body.categoryId.None? || body.categoryId == Some(0) ==> req.categoryId == 1)
      && (body.difficultyLevel.None? || body.difficultyLevel == Some(0) ==> req.difficultyLevel == 1)
      && (body.rewardType.Some? && body.rewardType.value != 0 ==> req.rewardType == body.rewardType.value)
      && (body.rewardValue.Some? && body.rewardValue.value != 0 ==> req.rewardValue == body.rewardValue.value)
      && (body.categoryId.Some? && body.categoryId.value != 0 ==> req.categoryId == body.categoryId.value)
      && (body.difficultyLevel.Some? && body.difficultyLevel.value != 0 ==> req.difficultyLevel == body.difficultyLevel.value)
      && req.rewardType != 0 && req.rewardValue != 0 && req.categoryId != 0 && req.difficultyLevel != 0
      && req.requirements == (if body.requirements.Given? then body.requirements else Given("[]"))
      && req.title == body.title && req.description == body.description
      && req.maxParticipants == body.maxParticipants && req.endTime == body.endTime
      && req.isRecurring == body.isRecurring && req.locationRequired == body.locationRequired
      && req.imageRequired == body.imageRequired && req.optional == body.optional
      && req.createdBy == u
  {
  }

  /** The status `createTask` answers a service error with: 400 for three message fragments, else 500. */
  function CreateTaskStatus(e: TaskModule.TaskError): int {
    var m := TaskModule.Message(e);
    if JsText.Contains(m, "积分不足") || JsText.Contains(m, "不能为空") || JsText.Contains(m, "必须晚于") then 400
    else 500
  }

  /** The status `joinTask` answers a service error with: 400 for four message fragments, else 500. */
  function JoinTaskStatus(e: TaskModule.TaskError): int {
    var m := TaskModule.Message(e);
    if JsText.Contains(m, "不存在") || JsText.Contains(m, "不能参与") || JsText.Contains(m, "已过期")
       || JsText.Contains(m, "已经参与") then 400
    else 500
  }

  /** The insufficient-points message mentions no character outside its fixed text and digits. */
  lemma InsufficientMessageAlphabet(required: int, current: int, c: char)
    requires c != '-' && !('0' <= c <= '9')
    requires c !in "积分不足，需要  积分，当前只有  积分"
    ensures c !in TaskModule.Message(TaskModule.InsufficientPoints(required, current))
  {
    JsText.DecimalAlphabet(required);
    JsText.DecimalAlphabet(current);
  }

  /** A message with none of the characters 积, 空, 晚 matches none of the 400 fragments of `createTask`. */
  lemma NoCreateFragment(m: string)
    requires '积' !in m && '空' !in m && '晚' !in m
    ensures !JsText.Contains(m, "积分不足") && !JsText.Contains(m, "不能为空") && !JsText.Contains(m, "必须晚于")
  {
    JsText.AbsentCharNotContained(m, "积分不足", '积');
    JsText.AbsentCharNotContained(m, "不能为空", '空');
    JsText.AbsentCharNotContained(m, "必须晚于", '晚');
  }

  /** A message with none of the characters 存, 参, 已 matches none of the 400 fragments of `joinTask`. */
  lemma NoJoinFragment(m: string)
    requires '存' !in m && '参' !in m && '已' !in m
    ensures !JsText.Contains(m, "不存在") && !JsText.Contains(m, "不能参与") && !JsText.Contains(m, "已过期")
            && !JsText.Contains(m, "已经参与")
  {
    JsText.AbsentCharNotContained(m, "不存在", '存');
    JsText.AbsentCharNotContained(m, "不能参与", '参');
    JsText.AbsentCharNotContained(m, "已过期", '已');
    JsText.AbsentCharNotContained(m, "已经参与", '已');
  }

  lemma CreateClientFragments(e: TaskModule.TaskError)
    requires e.InsufficientPoints? || e == TaskModule.TitleEmpty || e == TaskModule.DescriptionEmpty
             || e == TaskModule.EndTimeMissing || e == TaskModule.EndTimeNotLater
    ensures CreateTaskStatus(e) == 400
  {
    var m := TaskModule.Message(e);
    match e
    case InsufficientPoints(_, _) =>
      assert m[..4] == "积分不足";
      JsText.ContainedAt(m, "积分不足", 0);
    case EndTimeNotLater =>
      assert m[4] == '必' && m[5] == '须' && m[6] == '晚' && m[7] == '于';
      JsText.OccursAtByChars(m, "必须晚于", 4);
      JsText.ContainedAt(m, "必须晚于", 4);
    case TitleEmpty =>
      assert m[4] == '不' && m[5] == '能' && m[6] == '为' && m[7] == '空';
      JsText.OccursAtByChars(m, "不能为空", 4);
      JsText.ContainedAt(m, "不能为空", 4);
    case DescriptionEmpty =>
      assert m[4] == '不' && m[5] == '能' && m[6] == '为' && m[7] == '空';
      JsText.OccursAtByChars(m, "不能为空", 4);
      JsText.ContainedAt(m, "不能为空", 4);
    case EndTimeMissing =>
      assert m[4] == '不' && m[5] == '能' && m[6] == '为' && m[7] == '空';
      JsText.OccursAtByChars(m, "不能为空", 4);
      JsText.ContainedAt(m, "不能为空", 4);
    case _ =>
      assert false;
  }

  lemma CreateServerErrorsA(e: TaskModule.TaskError)
    requires e == TaskModule.TitleTooLong || e == TaskModule.RewardNegative || e == TaskModule.TaskUnavailable
    ensures CreateTaskStatus(e) == 500
  {
    NoCreateFragment(TaskModule.Message(e));
  }

  lemma CreateServerErrorsB(e: TaskModule.TaskError)
    requires e == TaskModule.OwnTask || e == TaskModule.TaskExpired
    ensures CreateTaskStatus(e) == 500
  {
    NoCreateFragment(TaskModule.Message(e));
  }

  lemma CreateServerErrorsC(e: TaskModule.TaskError)
    requires e == TaskModule.AlreadyJoined
    ensures CreateTaskStatus(e) == 500
  {
    NoCreateFragment(TaskModule.Message(e));
  }

  /** The database's duplicate-key message is plain ASCII, so neither controller treats it as a client error. */
  lemma DuplicateKeyIsServerError()
    ensures CreateTaskStatus(TaskModule.DuplicateKey) == 500
    ensures JoinTaskStatus(TaskModule.DuplicateKey) == 500
  {
    var m := TaskModule.Message(TaskModule.DuplicateKey);
    assert forall i :: 0 <= i < |m| ==> m[i] as int < 128;
    NoCreateFragment(m);
    NoJoinFragment(m);
  }

  /** The driver's refusal of an `undefined` bind parameter is plain ASCII too, phrase by phrase. */
  lemma UnboundMessageAscii()
    ensures forall i :: 0 <= i < |TaskModule.Message(TaskModule.UnboundField)| ==>
      TaskModule.Message(TaskModule.UnboundField)[i] as int < 128
  {
    var a, b, c, d := "Bind parameters ", "must not contain ", "undefined. To pass ", "SQL NULL specify JS null";
    assert forall i :: 0 <= i < |a| ==> a[i] as int < 128;
    assert forall i :: 0 <= i < |b| ==> b[i] as int < 128;
    assert forall i :: 0 <= i < |c| ==> c[i] as int < 128;
    assert forall i :: 0 <= i < |d| ==> d[i] as int < 128;
  }

  /** So neither controller treats it as a client error. */
  lemma UnboundFieldIsServerError()
    ensures CreateTaskStatus(TaskModule.UnboundField) == 500
    ensures JoinTaskStatus(TaskModule.UnboundField) == 500
  {
    var m := TaskModule.Message(TaskModule.UnboundField);
    UnboundMessageAscii();
    NoCreateFragment(m);
    NoJoinFragment(m);
  }

  /**
   * Which creation errors are client errors: the insufficient-points error and the four
   * empty-or-not-later rules. A too-long title and a negative reward are answered with 500.
   */
  lemma CreateTaskStatusClassifies(e: TaskModule.TaskError)
    ensures CreateTaskStatus(e) == 400 <==>
      e.InsufficientPoints? || e == TaskModule.TitleEmpty || e == TaskModule.DescriptionEmpty
      || e == TaskModule.EndTimeMissing || e == TaskModule.EndTimeNotLater
    ensures CreateTaskStatus(e) != 400 ==> CreateTaskStatus(e) == 500
  {
    if e.InsufficientPoints? || e == TaskModule.TitleEmpty || e == TaskModule.DescriptionEmpty
       || e == TaskModule.EndTimeMissing || e == TaskModule.EndTimeNotLater {
      CreateClientFragments(e);
    } else if e == TaskModule.TitleTooLong || e == TaskModule.RewardNegative || e == TaskModule.TaskUnavailable {
      CreateServerErrorsA(e);
    } else if e == TaskModule.OwnTask || e == TaskModule.TaskExpired {
      CreateServerErrorsB(e);
    } else if e == TaskModule.AlreadyJoined {
      CreateServerErrorsC(e);
    } else if e == TaskModule.DuplicateKey {
      DuplicateKeyIsServerError();
    } else {
      UnboundFieldIsServerError();
    }
  }

  /** The four eligibility errors carry a 400 fragment. */
  lemma JoinRefusalFragments(e: TaskModule.TaskError)
    requires e == TaskModule.TaskUnavailable || e == TaskModule.OwnTask || e == TaskModule.TaskExpired
             || e == TaskModule.AlreadyJoined
    ensures JoinTaskStatus(e) == 400
  {
    var m := TaskModule.Message(e);
    match e
    case TaskUnavailable =>
      JsText.ContainedAt(m, "不存在", 2);
    case OwnTask =>
      JsText.ContainedAt(m, "不能参与", 0);
    case TaskExpired =>
      JsText.ContainedAt(m, "已过期", 2);
    case AlreadyJoined =>
      JsText.ContainedAt(m, "已经参与", 1);
  }

  lemma JoinServerErrorsA(e: TaskModule.TaskError)
    requires e == TaskModule.TitleEmpty || e == TaskModule.TitleTooLong || e == TaskModule.DescriptionEmpty
    ensures JoinTaskStatus(e) == 500
  {
    NoJoinFragment(TaskModule.Message(e));
  }

  lemma JoinServerErrorsB(e: TaskModule.TaskError)
    requires e == TaskModule.EndTimeMissing || e == TaskModule.EndTimeNotLater
    ensures JoinTaskStatus(e) == 500
  {
    NoJoinFragment(TaskModule.Message(e));
  }

  lemma JoinServerErrorsC(e: TaskModule.TaskError)
    requires e == TaskModule.RewardNegative
    ensures JoinTaskStatus(e) == 500
  {
    NoJoinFragment(TaskModule.Message(e));
  }

  lemma JoinServerErrorsD(e: TaskModule.TaskError)
    requires e.InsufficientPoints?
    ensures JoinTaskStatus(e) == 500
  {
    InsufficientMessageAlphabet(e.required, e.current, '存');
    InsufficientMessageAlphabet(e.required, e.current, '参');
    InsufficientMessageAlphabet(e.required, e.current, '已');
    NoJoinFragment(TaskModule.Message(e));
  }

  /** Which join errors are client errors: exactly the four eligibility rules. */
  lemma JoinTaskStatusClassifies(e: TaskModule.TaskError)
    ensures JoinTaskStatus(e) == 400 <==>
      e == TaskModule.TaskUnavailable || e == TaskModule.OwnTask || e == TaskModule.TaskExpired
      || e == TaskModule.AlreadyJoined
    ensures JoinTaskStatus(e) != 400 ==> JoinTaskStatus(e) == 500
  {
    if e == TaskModule.TaskUnavailable || e == TaskModule.OwnTask || e == TaskModule.TaskExpired
       || e == TaskModule.AlreadyJoined {
      JoinRefusalFragments(e);
    } else if e == TaskModule.TitleEmpty || e == TaskModule.TitleTooLong || e == TaskModule.DescriptionEmpty {
      JoinServerErrorsA(e);
    } else if e == TaskModule.EndTimeMissing || e == TaskModule.EndTimeNotLater {
      JoinServerErrorsB(e);
    } else if e == TaskModule.RewardNegative {
      JoinServerErrorsC(e);
    } else if e == TaskModule.DuplicateKey {
      DuplicateKeyIsServerError();
    } else if e == TaskModule.UnboundField {
      UnboundFieldIsServerError();
    } else {
      JoinServerErrorsD(e);
    }
  }

  /** The create-task endpoint: the new store and 201, or the unchanged store and the error's status. */
  function CreateTaskEndpoint(s: Store, body: CreateTaskBody, u: UserId, taskId: TaskId, now: Timestamp)
    : (r: (Store, int))
    ensures r.1 == 201 <==> TaskModule.CreateTask(s, BuildRequest(body, u), taskId, now).Ok?
    ensures r.1 == 201 ==> r.0 == TaskModule.CreateTask(s, BuildRequest(body, u), taskId, now).value.0
    ensures r.1 != 201 ==> r.0 == s && r.1 == CreateTaskStatus(TaskModule.CreateTask(s, BuildRequest(body, u), taskId, now).error)
  {
    match TaskModule.CreateTask(s, BuildRequest(body, u), taskId, now)
    case Ok((s', _)) => (s', 201)
    case Err(e) => (s, CreateTaskStatus(e))
  }

  /** A title longer than 200 code units is rejected, but reported as a server error. */
  lemma OverlongTitleIsServerError(s: Store, body: CreateTaskBody, u: UserId, taskId: TaskId, now: Timestamp)
    requires !JsText.Blank(body.title) && JsText.Utf16Length(body.title) > TaskModule.MaxTitleLength
    ensures CreateTaskEndpoint(s, body, u, taskId, now) == (s, 500)
  {
    CreateTaskStatusClassifies(TaskModule.TitleTooLong);
  }

  /** A negative reward on an otherwise valid body is rejected, but reported as a server error. */
  lemma NegativeRewardIsServerError(s: Store, body: CreateTaskBody, u: UserId, taskId: TaskId, now: Timestamp)
    requires !JsText.Blank(body.title) && JsText.Utf16Length(body.title) <= TaskModule.MaxTitleLength
    requires !JsText.Blank(body.description)
    requires body.endTime.Given? && body.endTime.value > now
    requires body.rewardValue.Some? && body.rewardValue.value < 0
    ensures CreateTaskEndpoint(s, body, u, taskId, now) == (s, 500)
  {
    CreateTaskStatusClassifies(TaskModule.RewardNegative);
  }

  /**
   * A body that names neither reward type nor value asks for a 10-point reward, so the creator
   * needs 15 points and the request is answered 400 below that.
   */
  lemma DefaultRewardNeedsFifteen(s: Store, body: CreateTaskBody, u: UserId, taskId: TaskId, now: Timestamp)
    requires body.rewardType.None? && body.rewardValue.None?
    requires TaskModule.ValidRequest(BuildRequest(body, u), now)
    ensures Balance(s, u) < 15 ==> CreateTaskEndpoint(s, body, u, taskId, now) == (s, 400)
    ensures Balance(s, u) >= 15 && !TaskModule.TaskIdTaken(s.tasks, taskId) ==>
      CreateTaskEndpoint(s, body, u, taskId, now).1 == 201
      && Balance(CreateTaskEndpoint(s, body, u, taskId, now).0, u) == Balance(s, u) - TaskModule.PublishCost
  {
    CreateTaskStatusClassifies(TaskModule.InsufficientPoints(15, Balance(s, u)));
  }

  /** The join endpoint: the new store and 201, or the unchanged store and the error's status. */
  function JoinTaskEndpoint(s: Store, id: TaskId, u: UserId, pid: string, now: Timestamp): (r: (Store, int))
    ensures r.1 == 201 <==> TaskModule.Eligible(s, id, u, now) && !TaskModule.ParticipationIdTaken(s.userTasks, pid)
    ensures r.1 == 201 ==> r.0 == TaskModule.JoinTask(s, id, u, pid, now).value.0
    ensures r.1 != 201 ==> r.0 == s && r.1 == JoinTaskStatus(TaskModule.JoinTask(s, id, u, pid, now).error)
  {
    match TaskModule.JoinTask(s, id, u, pid, now)
    case Ok((s', _)) => (s', 201)
    case Err(e) => (s, JoinTaskStatus(e))
  }

  /**
   * A join is answered 400 exactly when an eligibility rule refuses it, and 500 only when the
   * generated participation id is already taken.
   */
  lemma JoinRefusalsAreClientErrors(s: Store, id: TaskId, u: UserId, pid: string, now: Timestamp)
    ensures JoinTaskEndpoint(s, id, u, pid, now).1 in {201, 400, 500}
    ensures JoinTaskEndpoint(s, id, u, pid, now).1 == 400 <==> !TaskModule.Eligible(s, id, u, now)
    ensures JoinTaskEndpoint(s, id, u, pid, now).1 == 500 <==>
      TaskModule.Eligible(s, id, u, now) && TaskModule.ParticipationIdTaken(s.userTasks, pid)
  {
    var r := TaskModule.JoinTask(s, id, u, pid, now);
    if r.Err? {
      JoinTaskStatusClassifies(r.error);
    }
  }

  /** The query string of the task list; a missing or unparsable number is `None`, a missing text "". */
  datatype ListParams = ListParams(page: Option<int>, limit: Option<int>, categoryId: Option<int>,
                                   status: Option<int>, sort: string)

  /**
   * The service query: page 1, 20 per page, status 1 (open) and `latest` unless given; a missing
   * or zero number falls to its default, a given non-zero one and the category pass unchanged.
   */
  function ListQueryOf(p: ListParams): (q: TaskListing.ListQuery)
    ensures q.limit != 0 && q.page != 0 && q.status != 0 && q.sort != ""
    ensures p.limit.None? || p.limit == Some(0) ==> q.limit == 20
    ensures p.page.None? || p.page == Some(0) ==> q.page == 1
    ensures p.status.None? || p.status == Some(0) ==> q.status == 1
    ensures p.sort == "" ==> q.sort == "latest"
    ensures p.limit.Some? && p.limit.value != 0 ==> q.limit == p.limit.value
    ensures p.page.Some? && p.page.value != 0 ==> q.page == p.page.value
    ensures p.status.Some? && p.status.value != 0 ==> q.status == p.status.value
    ensures p.sort != "" ==> q.sort == p.sort
    ensures q.categoryId == p.categoryId
  {
    TaskListing.ListQuery(OrDefault(p.page, 1), OrDefault(p.limit, 20), p.categoryId, OrDefault(p.status, 1),
                          if p.sort == "" then "latest" else p.sort)
  }

  /**
   * The list endpoint: 200 and the service's page for the defaulted query, or 500 when the
   * database refuses the query.
   */
  function GetTasksEndpoint(s: Store, p: ListParams): (r: (int, Option<TaskListing.TaskPage>))
    ensures r.0 == 200 <==> TaskModule.GetTasks(s, ListQueryOf(p)).Ok?
    ensures r.0 == 200 ==> r.1 == Some(TaskModule.GetTasks(s, ListQueryOf(p)).value)
    ensures r.0 != 200 ==> r.0 == 500 && r.1.None?
    ensures r.0 == 200 ==> r.1.value.pagination.totalPages.Pages?
  {
    match TaskModule.GetTasks(s, ListQueryOf(p))
    case Ok(page) => (200, Some(page))
    case Err(_) => (500, None)
  }

  /** With the defaults, an empty query string lists the first 20 open tasks, newest first. */
  lemma DefaultListing(s: Store)
    ensures var r := GetTasksEndpoint(s, ListParams(None, None, None, None, ""));
      && r.0 == 200
      && |r.1.value.tasks| <= 20
      && (forall t :: t in r.1.value.tasks ==> t in s.tasks && t.status == 1)
      && TaskListing.Sorted(TaskListing.Latest, r.1.value.tasks)
  {
  }
}

=== FILE: task_listing.dfy ===
/**
 * The task list query shared by both task services: the `WHERE` filter, the `ORDER BY`
 * chosen by `sort`, `LIMIT/OFFSET` paging and the `COUNT(*)` behind `totalPages`.
 * The text search (`LIKE`) is not modelled.
 */
module TaskListing {
  import opened Wrappers
  import opened Store
  import Paging

  /** The four orderings the `sort` parameter selects. */
  datatype TaskOrder = Latest | Hot | Urgent | Reward

  /** `sort === 'hot' / 'urgent' / 'reward'`, and `latest` for every other value. */
  function OrderFor(sort: string): (o: TaskOrder)
    ensures o == Hot <==> sort == "hot"
    ensures o == Urgent <==> sort == "urgent"
    ensures o == Reward <==> sort == "reward"
  {
    if sort == "hot" then Hot
    else if sort == "urgent" then Urgent
    else if sort == "reward" then Reward
    else Latest
  }

  /** `t.end_time ASC`: NULL sorts first in MySQL, then earlier deadlines. */
  predicate EndNoLater(a: Task, b: Task) {
    a.endTime.None? || (b.endTime.Some? && a.endTime.value <= b.endTime.value)
  }

  /**
   * `a` may be listed before `b` under ordering `o`: the ordering's own key decides, and ties on
   * it fall back to `t.created_at DESC`.
   */
  predicate Before(o: TaskOrder, a: Task, b: Task) {
    var newer := a.createdAt >= b.createdAt;
    match o
    case Latest => newer
    case Hot =>
      a.currentParticipants > b.currentParticipants
      || (a.currentParticipants == b.currentParticipants && newer)
    case Urgent =>
      (EndNoLater(a, b) && !EndNoLater(b, a)) || (EndNoLater(a, b) && EndNoLater(b, a) && newer)
    case Reward =>
      a.rewardValue > b.rewardValue || (a.rewardValue == b.rewardValue && newer)
  }

  /** Every ordering is a total preorder, so a sorted listing exists. */
  lemma BeforeTotal(o: TaskOrder, a: Task, b: Task)
    ensures Before(o, a, b) || Before(o, b, a)
  {
  }

  lemma BeforeTransitive(o: TaskOrder, a: Task, b: Task, c: Task)
    requires Before(o, a, b) && Before(o, b, c)
    ensures Before(o, a, c)
  {
  }

  predicate Sorted(o: TaskOrder, xs: seq<Task>) {
    forall i, j :: 0 <= i < j < |xs| ==> Before(o, xs[i], xs[j])
  }

  /** Places `t` before the first element it may precede. */
  function Insert(o: TaskOrder, t: Task, xs: seq<Task>): (r: seq<Task>)
    requires Sorted(o, xs)
    ensures multiset(r) == multiset(xs) + multiset{t}
    ensures Sorted(o, r)
    decreases |xs|
  {
    if |xs| == 0 then [t]
    else if Before(o, t, xs[0]) then
      assert forall j :: 0 <= j < |xs| ==> Before(o, t, xs[j]) by {
        forall j | 0 <= j < |xs| ensures Before(o, t, xs[j]) {
          if j > 0 { BeforeTransitive(o, t, xs[0], xs[j]); }
        }
      }
      SortedCons(o, t, xs);
      [t] + xs
    else
      assert Sorted(o, xs[1..]);
      var rest := Insert(o, t, xs[1..]);
      assert xs == [xs[0]] + xs[1..];
      BeforeTotal(o, t, xs[0]);
      HeadBeforeRest(o, xs);
      assert forall j :: 0 <= j < |rest| ==> Before(o, xs[0], rest[j]) by {
        forall j | 0 <= j < |rest| ensures Before(o, xs[0], rest[j]) {
          assert rest[j] in multiset(rest);
        }
      }
      SortedCons(o, xs[0], rest);
      [xs[0]] + rest
  }

  /** A sorted list stays sorted under a new head that may precede each of its elements. */
  lemma SortedCons(o: TaskOrder, x: Task, rest: seq<Task>)
    requires Sorted(o, rest)
    requires forall j :: 0 <= j < |rest| ==> Before(o, x, rest[j])
    ensures Sorted(o, [x] + rest)
  {
    forall i, j | 0 <= i < j < |[x] + rest| ensures Before(o, ([x] + rest)[i], ([x] + rest)[j]) {
      assert ([x] + rest)[j] == rest[j - 1];
      if i > 0 { assert ([x] + rest)[i] == rest[i - 1]; }
    }
  }

  /** The head of a sorted list may precede everything after it. */
  lemma HeadBeforeRest(o: TaskOrder, xs: seq<Task>)
    requires Sorted(o, xs) && |xs| > 0
    ensures forall y :: y in multiset(xs[1..]) ==> Before(o, xs[0], y)
  {
    forall y | y in multiset(xs[1..]) ensures Before(o, xs[0], y) {
      var k :| 0 <= k < |xs[1..]| && xs[1..][k] == y;
      assert xs[k + 1] == y;
    }
  }

  /** `ORDER BY` under ordering `o`: a sorted permutation of `xs` (insertion sort; ties in any order). */
  function SortTasks(o: TaskOrder, xs: seq<Task>): (r: seq<Task>)
    ensures multiset(r) == multiset(xs)
    ensures Sorted(o, r)
    decreases |xs|
  {
    if |xs| == 0 then []
    else
      assert xs == [xs[0]] + xs[1..];
      Insert(o, xs[0], SortTasks(o, xs[1..]))
  }

  /** `WHERE t.status = ? [AND t.category_id = ?]`; a missing or zero category does not filter. */
  predicate Matches(t: Task, status: int, categoryId: Option<int>) {
    && t.status == status
    && (categoryId.None? || categoryId.value == 0 || t.categoryId == categoryId.value)
  }

  /** The rows of `rows` that the `WHERE` clause keeps, in table order, each as often as it occurs. */
  function Filter(rows: seq<Task>, status: int, categoryId: Option<int>): (r: seq<Task>)
    ensures |r| <= |rows|
    ensures forall t :: t in r <==> t in rows && Matches(t, status, categoryId)
    ensures forall t :: multiset(r)[t] == if Matches(t, status, categoryId) then multiset(rows)[t] else 0
    decreases |rows|
  {
    if |rows| == 0 then []
    else
      var rest := Filter(rows[1..], status, categoryId);
      assert rows == [rows[0]] + rows[1..];
      assert multiset(rows) == multiset{rows[0]} + multiset(rows[1..]);
      if Matches(rows[0], status, categoryId) then [rows[0]] + rest else rest
  }

  /** The parameters `getTasks` receives (the search text is not modelled). */
  datatype ListQuery = ListQuery(page: int, limit: int, categoryId: Option<int>, status: int, sort: string)

  datatype Pagination = Pagination(page: int, limit: int, total: nat, totalPages: Paging.PageCount)

  datatype TaskPage = TaskPage(tasks: seq<Task>, pagination: Pagination)

  /** A negative `LIMIT` or `OFFSET` is rejected by the database. */
  datatype ListError = QueryFailed

  /**
   * `getTasks`: the page of matching tasks in the chosen order, with the pagination block built
   * from the same `WHERE` clause.
   */
  function ListTasks(rows: seq<Task>, q: ListQuery): (r: Result<TaskPage, ListError>)
    ensures r.Err? <==> q.limit < 0 || Paging.Offset(q.page, q.limit) < 0
    ensures r.Ok? ==>
      var matching := Filter(rows, q.status, q.categoryId);
      && r.value.pagination == Pagination(q.page, q.limit, |matching|, Paging.TotalPages(|matching|, q.limit))
      && |r.value.tasks| <= q.limit
      && Sorted(OrderFor(q.sort), r.value.tasks)
      && (forall t :: t in r.value.tasks ==> t in rows && Matches(t, q.status, q.categoryId))
    ensures r.Ok? ==>
      var matching := Filter(rows, q.status, q.categoryId);
      var offset := Paging.Offset(q.page, q.limit);
      |r.value.tasks| == if offset >= |matching| then 0
                         else if offset + q.limit <= |matching| then q.limit
                         else |matching| - offset
    ensures r.Ok? ==>
      exists sorted :: && multiset(sorted) == multiset(Filter(rows, q.status, q.categoryId))
                       && Sorted(OrderFor(q.sort), sorted)
                       && r.value.tasks == Paging.Window(sorted, Paging.Offset(q.page, q.limit), q.limit)
  {
    var offset := Paging.Offset(q.page, q.limit);
    if q.limit < 0 || offset < 0 then Err(QueryFailed)
    else
      var matching := Filter(rows, q.status, q.categoryId);
      var sorted := SortTasks(OrderFor(q.sort), matching);
      var page := Paging.Window(sorted, offset, q.limit);
      assert Sorted(OrderFor(q.sort), page);
      assert forall t :: t in page ==> t in multiset(sorted);
      assert |sorted| == |multiset(sorted)| == |matching|;
      Ok(TaskPage(page, Pagination(q.page, q.limit, |matching|, Paging.TotalPages(|matching|, q.limit))))
  }

  /** An unrecognised `sort` value (including the empty one) lists exactly as `latest` does. */
  lemma UnknownSortIsLatest(rows: seq<Task>, q: ListQuery)
    requires q.sort != "hot" && q.sort != "urgent" && q.sort != "reward"
    ensures ListTasks(rows, q) == ListTasks(rows, q.(sort := "latest"))
  {
  }

  /**
   * Paging loses nothing: with a positive page size, every matching task is listed on some page
   * within the reported page count.
   */
  lemma EveryMatchIsListed(rows: seq<Task>, q: ListQuery, t: Task)
    requires q.limit > 0
    requires t in rows && Matches(t, q.status, q.categoryId)
    ensures exists page :: 1 <= page <= Paging.TotalPages(|Filter(rows, q.status, q.categoryId)|, q.limit).n
                        && ListTasks(rows, q.(page := page)).Ok?
                        && t in ListTasks(rows, q.(page := page)).value.tasks
  {
    var matching := Filter(rows, q.status, q.categoryId);
    var sorted := SortTasks(OrderFor(q.sort), matching);
    assert |sorted| == |multiset(sorted)| == |matching|;
    assert t in multiset(sorted);
    var i :| 0 <= i < |sorted| && sorted[i] == t;
    Paging.ItemOnItsPage(sorted, q.limit, i);
    var page := i / q.limit + 1;
    assert Paging.Offset(page, q.limit) == (i / q.limit) * q.limit;
    assert ListTasks(rows, q.(page := page)).value.tasks == Paging.Window(sorted, Paging.Offset(page, q.limit), q.limit);
  }
}

=== FILE: task_module.dfy ===
/**
 * The task board service of `api/TaskModule.js` (class `TaskService`): request validation,
 * the points check and publishing fee, task creation, join eligibility and joining.
 */
module TaskModule {
  import opened Wrappers
  import opened Store
  import JsText
  import Ledger
  import TaskListing

  /** The fee charged to the creator of a points-rewarded task. */
  const PublishCost := 5

  /** The longest accepted title, in UTF-16 code units. */
  const MaxTitleLength := 200

  /** `rewardType` 1 pays the reward in points. */
  const PointsReward := 1

  /**
   * The optional request fields whose columns the task row of this model does not keep: reward
   * description, estimated time, start time, recurring type, location address and radius.
   */
  datatype OptionalColumns = OptionalColumns(
    rewardDescription: Field<string>,
    estimatedTime: Field<int>,
    startTime: Field<Timestamp>,
    recurringType: Field<string>,
    locationAddress: Field<string>,
    locationRadius: Field<int>)
  {
    /** Every one of them was sent, possibly as `null`. */
    predicate AllSent() {
      && !rewardDescription.Absent? && !estimatedTime.Absent? && !startTime.Absent?
      && !recurringType.Absent? && !locationAddress.Absent? && !locationRadius.Absent?
    }
  }

  /**
   * The request `createTask` receives. An absent string field is ""; `requirements` is the JSON
   * text of the list.
   */
  datatype CreateTaskRequest = CreateTaskRequest(
    title: string,
    description: string,
    categoryId: int,
    requirements: Field<string>,
    rewardType: int,
    rewardValue: int,
    maxParticipants: Field<int>,
    difficultyLevel: int,
    endTime: Field<Timestamp>,
    isRecurring: bool,
    locationRequired: bool,
    imageRequired: bool,
    createdBy: UserId,
    optional: OptionalColumns)

  /**
   * The errors the service throws, one per message: its own, and the database driver's for a
   * taken primary key and for a bind parameter that is `undefined`.
   */
  datatype TaskError =
    | TitleEmpty | TitleTooLong | DescriptionEmpty | EndTimeMissing | EndTimeNotLater | RewardNegative
    | InsufficientPoints(required: int, current: int)
    | TaskUnavailable | OwnTask | TaskExpired | AlreadyJoined
    | DuplicateKey | UnboundField

  /** The text of each error, as the controller sees it in `error.message`. */
  function Message(e: TaskError): string {
    match e
    case TitleEmpty => "任务标题不能为空"
    case TitleTooLong => "任务标题不能超过200个字符"
    case DescriptionEmpty => "任务描述不能为空"
    case EndTimeMissing => "截止时间不能为空"
    case EndTimeNotLater => "截止时间必须晚于当前时间"
    case RewardNegative => "奖励值不能为负数"
    case InsufficientPoints(required, current) =>
      "积分不足，需要 " + JsText.Decimal(required) + " 积分，当前只有 " + JsText.Decimal(current) + " 积分"
    case TaskUnavailable => "任务不存在或已关闭"
    case OwnTask => "不能参与自己发布的任务"
    case TaskExpired => "任务已过期"
    case AlreadyJoined => "您已经参与过这个任务"
    case DuplicateKey => "Duplicate entry for key 'PRIMARY'"
    case UnboundField => "Bind parameters " + "must not contain " + "undefined. To pass " + "SQL NULL specify JS null"
  }

  /** `x || d` on a number: 0 is falsy. */
  function Or(x: int, d: int): int {
    if x != 0 then x else d
  }

  /** Every rule of `validateCreateTaskRequest` holds. */
  predicate ValidRequest(req: CreateTaskRequest, now: Timestamp) {
    && !JsText.Blank(req.title)
    && JsText.Utf16Length(req.title) <= MaxTitleLength
    && !JsText.Blank(req.description)
    && req.endTime.Given? && req.endTime.value > now
    && req.rewardValue >= 0
  }

  /**
   * `validateCreateTaskRequest`: the first failing rule wins, in the order title blank, title too
   * long, description blank, end time missing (left out or `null`), end time not after `now`,
   * negative reward.
   */
  function ValidateCreateTaskRequest(req: CreateTaskRequest, now: Timestamp): (r: Outcome<TaskError>)
    ensures r == Fail(TitleEmpty) <==> JsText.Blank(req.title)
    ensures r == Fail(TitleTooLong) <==>
      !JsText.Blank(req.title) && JsText.Utf16Length(req.title) > MaxTitleLength
    ensures r == Fail(DescriptionEmpty) <==>
      !JsText.Blank(req.title) && JsText.Utf16Length(req.title) <= MaxTitleLength && JsText.Blank(req.description)
    ensures r == Fail(EndTimeMissing) <==>
      !JsText.Blank(req.title) && JsText.Utf16Length(req.title) <= MaxTitleLength && !JsText.Blank(req.description)
      && !req.endTime.Given?
    ensures r == Fail(EndTimeNotLater) <==>
      !JsText.Blank(req.title) && JsText.Utf16Length(req.title) <= MaxTitleLength && !JsText.Blank(req.description)
      && req.endTime.Given? && req.endTime.value <= now
    ensures r == Fail(RewardNegative) <==>
      !JsText.Blank(req.title) && JsText.Utf16Length(req.title) <= MaxTitleLength && !JsText.Blank(req.description)
      && req.endTime.Given? && req.endTime.value > now && req.rewardValue < 0
    ensures r.Pass? <==> ValidRequest(req, now)
  {
    JsText.TrimEmptyIffBlank(req.title);
    JsText.TrimEmptyIffBlank(req.description);
    if |JsText.Trim(req.title)| == 0 then Fail(TitleEmpty)
    else if JsText.Utf16Length(req.title) > MaxTitleLength then Fail(TitleTooLong)
    else if |JsText.Trim(req.description)| == 0 then Fail(DescriptionEmpty)
    else if !req.endTime.Given? then Fail(EndTimeMissing)
    else if req.endTime.value <= now then Fail(EndTimeNotLater)
    else if req.rewardValue != 0 && req.rewardValue < 0 then Fail(RewardNegative)
    else Pass
  }

  /**
   * `validateUserPoints`: only a points-rewarded task is checked, and it needs the reward plus
   * the publishing fee, although only the fee is charged.
   */
  function ValidateUserPoints(s: Store, u: UserId, rewardType: int, rewardValue: int): (r: Outcome<TaskError>)
    ensures r.Fail? <==> rewardType == PointsReward && Balance(s, u) < rewardValue + PublishCost
    ensures r.Fail? ==> r.error == InsufficientPoints(rewardValue + PublishCost, Balance(s, u))
  {
    if rewardType != PointsReward then Pass
    else
      var userPoints := Balance(s, u);
      if userPoints < rewardValue + PublishCost then Fail(InsufficientPoints(rewardValue + PublishCost, userPoints))
      else Pass
  }

  /**
   * `processPointsForTaskCreation`: charges the fee (never the reward) and appends one type-2
   * `task_publish` record pointing at the task, whose `balanceAfter` is the new balance.
   */
  function ProcessPointsForTaskCreation(s: Store, u: UserId, taskId: TaskId, now: Timestamp): (s': Store)
    ensures |s'.records| == |s.records| + 1 && s'.records[..|s.records|] == s.records
    ensures s'.records[|s.records|].userId == u
    ensures s'.records[|s.records|].kind == Spend
    ensures s'.records[|s.records|].sourceType == "task_publish"
    ensures s'.records[|s.records|].sourceId == Some(taskId)
    ensures s'.records[|s.records|].points == PublishCost
    ensures s'.records[|s.records|].balanceAfter == Balance(s, u) - PublishCost
    ensures u in s.profiles ==> Balance(s', u) == Balance(s, u) - PublishCost
    ensures u in s.profiles ==> u in s'.profiles && s'.profiles[u] == s.profiles[u].(totalPoints := Balance(s, u) - PublishCost)
    ensures s'.profiles.Keys == s.profiles.Keys
    ensures forall v :: v in s.profiles && v != u ==> s'.profiles[v] == s.profiles[v]
    ensures s' == s.(profiles := s'.profiles, records := s'.records)
  {
    Ledger.Post(s, u, Spend, "task_publish", Some(taskId), PublishCost,
                "发布任务", Some("发布任务消耗" + JsText.Decimal(PublishCost) + "积分"), now)
  }

  /** Some row of the table has primary key `id`. */
  predicate TaskIdTaken(tasks: seq<Task>, id: TaskId) {
    exists i :: 0 <= i < |tasks| && tasks[i].id == id
  }

  /**
   * The row `createTask` inserts, with the `||` defaults of the INSERT and status 1 (open): a
   * missing requirements list is stored as `[]`, a missing or zero capacity as NULL.
   */
  function TaskRow(req: CreateTaskRequest, id: TaskId, now: Timestamp): Task {
    Task(id, Or(req.categoryId, 1), req.title, req.description,
         Some(if req.requirements.Given? then req.requirements.value else "[]"),
         Or(req.rewardType, 1), Or(req.rewardValue, 0),
         if req.maxParticipants.Given? && req.maxParticipants.value != 0 then Some(req.maxParticipants.value) else None,
         0, Or(req.difficultyLevel, 1), req.endTime.Bound(),
         if req.isRecurring then 1 else 0, if req.locationRequired then 1 else 0, if req.imageRequired then 1 else 0,
         1, req.createdBy, now)
  }

  /** Inserts `row` and, for a points-rewarded request, charges the fee; one transaction. */
  function InsertAndCharge(s: Store, req: CreateTaskRequest, row: Task, now: Timestamp)
    : Result<(Store, Task), TaskError>
  {
    if TaskIdTaken(s.tasks, row.id) then Err(DuplicateKey)
    else
      var s1 := s.(tasks := s.tasks + [row]);
      var s2 := if req.rewardType == PointsReward then ProcessPointsForTaskCreation(s1, req.createdBy, row.id, now) else s1;
      Ok((s2, row))
  }

  /**
   * `createTask` with generated id `taskId` at time `now`: validation first, then the points check,
   * then the insert (a taken id fails it) and, for a points reward, the fee.
   */
  function CreateTask(s: Store, req: CreateTaskRequest, taskId: TaskId, now: Timestamp)
    : (r: Result<(Store, Task), TaskError>)
    ensures ValidateCreateTaskRequest(req, now).Fail? ==> r == Err(ValidateCreateTaskRequest(req, now).error)
    ensures ValidRequest(req, now) ==>
      (r == Err(InsufficientPoints(req.rewardValue + PublishCost, Balance(s, req.createdBy)))
       <==> req.rewardType == PointsReward && Balance(s, req.createdBy) < req.rewardValue + PublishCost)
    ensures r.Ok? <==>
      ValidRequest(req, now) && ValidateUserPoints(s, req.createdBy, req.rewardType, req.rewardValue).Pass?
      && !TaskIdTaken(s.tasks, taskId)
    ensures r == Err(DuplicateKey) <==>
      ValidRequest(req, now) && ValidateUserPoints(s, req.createdBy, req.rewardType, req.rewardValue).Pass?
      && TaskIdTaken(s.tasks, taskId)
    ensures r.Ok? ==>
      var (s', task) := r.value;
      && task.id == taskId && task.status == 1 && task.currentParticipants == 0
      && task.createdBy == req.createdBy && task.title == req.title
      && task == TaskRow(req, taskId, now)
      && s'.tasks == s.tasks + [task]
      && (req.rewardType == PointsReward ==>
            && req.createdBy in s.profiles
            && Balance(s', req.createdBy) == Balance(s, req.createdBy) - PublishCost
            && Balance(s', req.createdBy) >= req.rewardValue >= 0
            && |s'.records| == |s.records| + 1
            && s'.records[|s.records|].kind == Spend
            && s'.records[|s.records|].sourceType == "task_publish"
            && s'.records[|s.records|].sourceId == Some(taskId)
            && s'.records[|s.records|].points == PublishCost
            && s'.records[|s.records|].balanceAfter == Balance(s', req.createdBy))
      && (req.rewardType != PointsReward ==> s'.records == s.records && s'.profiles == s.profiles)
      && s'.records[..|s.records|] == s.records
      && s'.profiles.Keys == s.profiles.Keys
      && (req.createdBy in s.profiles ==>
            s'.profiles[req.createdBy] == s.profiles[req.createdBy].(totalPoints := Balance(s', req.createdBy)))
      && (forall v :: v in s.profiles && v != req.createdBy ==> s'.profiles[v] == s.profiles[v])
      && s' == s.(tasks := s'.tasks, profiles := s'.profiles, records := s'.records)
  {
    match ValidateCreateTaskRequest(req, now)
    case Fail(e) => Err(e)
    case Pass =>
      match ValidateUserPoints(s, req.createdBy, req.rewardType, req.rewardValue)
      case Fail(e) => Err(e)
      case Pass => InsertAndCharge(s, req, TaskRow(req, taskId, now), now)
  }

  /** The first open row (status 1) with primary key `id`: `SELECT * FROM tasks WHERE id = ? AND status = 1`. */
  function OpenTask(tasks: seq<Task>, id: TaskId): (r: Option<Task>)
    ensures r.None? <==> !exists i :: 0 <= i < |tasks| && tasks[i].id == id && tasks[i].status == 1
    ensures r.Some? ==> r.value in tasks && r.value.id == id && r.value.status == 1
    decreases |tasks|
  {
    if |tasks| == 0 then None
    else if tasks[0].id == id && tasks[0].status == 1 then Some(tasks[0])
    else
      var r := OpenTask(tasks[1..], id);
      assert forall i :: 1 <= i < |tasks| ==> tasks[i] == tasks[1..][i - 1];
      r
  }

  /** `u` has a participation in task `id` that is not withdrawn. */
  predicate HasJoined(userTasks: seq<Participation>, id: TaskId, u: UserId) {
    exists i :: 0 <= i < |userTasks| && userTasks[i].taskId == id && userTasks[i].userId == u && userTasks[i].status != 0
  }

  /** `task.end_time && new Date(task.end_time) <= now`: a task without deadline never expires. */
  predicate Expired(t: Task, now: Timestamp) {
    t.endTime.Some? && t.endTime.value <= now
  }

  /** `u` may join task `id` at `now`: all four join rules hold. */
  predicate Eligible(s: Store, id: TaskId, u: UserId, now: Timestamp) {
    && OpenTask(s.tasks, id).Some?
    && OpenTask(s.tasks, id).value.createdBy != u
    && !Expired(OpenTask(s.tasks, id).value, now)
    && !HasJoined(s.userTasks, id, u)
  }

  /**
   * `validateTaskForJoining`: fails with the first broken rule, in the order missing or closed,
   * own task, expired, already joined.
   */
  function ValidateTaskForJoining(s: Store, id: TaskId, u: UserId, now: Timestamp): (r: Result<Task, TaskError>)
    ensures r == Err(TaskUnavailable) <==> OpenTask(s.tasks, id).None?
    ensures r == Err(OwnTask) <==> OpenTask(s.tasks, id).Some? && OpenTask(s.tasks, id).value.createdBy == u
    ensures r == Err(TaskExpired) <==>
      OpenTask(s.tasks, id).Some? && OpenTask(s.tasks, id).value.createdBy != u && Expired(OpenTask(s.tasks, id).value, now)
    ensures r == Err(AlreadyJoined) <==>
      OpenTask(s.tasks, id).Some? && OpenTask(s.tasks, id).value.createdBy != u && !Expired(OpenTask(s.tasks, id).value, now)
      && HasJoined(s.userTasks, id, u)
    ensures r.Ok? <==> Eligible(s, id, u, now)
    ensures r.Ok? ==> r.value == OpenTask(s.tasks, id).value
  {
    match OpenTask(s.tasks, id)
    case None => Err(TaskUnavailable)
    case Some(task) =>
      if task.createdBy == u then Err(OwnTask)
      else if Expired(task, now) then Err(TaskExpired)
      else if HasJoined(s.userTasks, id, u) then Err(AlreadyJoined)
      else Ok(task)
  }

  /** Some participation row has primary key `id`. */
  predicate ParticipationIdTaken(userTasks: seq<Participation>, id: string) {
    exists k :: 0 <= k < |userTasks| && userTasks[k].id == id
  }

  /** `UPDATE tasks SET current_participants = current_participants + 1 WHERE id = ?` */
  function IncrementParticipants(tasks: seq<Task>, id: TaskId): (r: seq<Task>)
    ensures |r| == |tasks|
    ensures forall i :: 0 <= i < |r| ==>
      r[i] == if tasks[i].id == id then tasks[i].(currentParticipants := tasks[i].currentParticipants + 1) else tasks[i]
  {
    seq(|tasks|, i requires 0 <= i < |tasks| =>
      if tasks[i].id == id then tasks[i].(currentParticipants := tasks[i].currentParticipants + 1) else tasks[i])
  }

  /** The reply of a successful join. */
  datatype JoinReply = JoinReply(id: string, taskId: TaskId, userId: UserId, status: int)

  /**
   * `joinTask` with generated participation id `pid`: after the eligibility checks, inserts one
   * participation (status 1, progress 0) and raises the task's participant count by one; a
   * taken `pid` fails the insert. The task's `maxParticipants` is never consulted.
   */
  function JoinTask(s: Store, id: TaskId, u: UserId, pid: string, now: Timestamp)
    : (r: Result<(Store, JoinReply), TaskError>)
    ensures r.Err? && r.error != DuplicateKey ==> ValidateTaskForJoining(s, id, u, now) == Err(r.error)
    ensures r == Err(DuplicateKey) <==> Eligible(s, id, u, now) && ParticipationIdTaken(s.userTasks, pid)
    ensures r.Ok? <==> Eligible(s, id, u, now) && !ParticipationIdTaken(s.userTasks, pid)
    ensures r.Ok? ==>
      var (s', reply) := r.value;
      && reply == JoinReply(pid, id, u, 1)
      && s'.userTasks == s.userTasks + [Participation(pid, id, u, 1, 0, now)]
      && |s'.tasks| == |s.tasks|
      && (forall i :: 0 <= i < |s.tasks| && s.tasks[i].id == id ==>
            s'.tasks[i] == s.tasks[i].(currentParticipants := s.tasks[i].currentParticipants + 1))
      && (forall i :: 0 <= i < |s.tasks| && s.tasks[i].id != id ==> s'.tasks[i] == s.tasks[i])
      && s' == s.(tasks := s'.tasks, userTasks := s'.userTasks)
  {
    match ValidateTaskForJoining(s, id, u, now)
    case Err(e) => Err(e)
    case Ok(_) =>
      if ParticipationIdTaken(s.userTasks, pid) then Err(DuplicateKey)
      else
        Ok((s.(userTasks := s.userTasks + [Participation(pid, id, u, 1, 0, now)],
               tasks := IncrementParticipants(s.tasks, id)),
            JoinReply(pid, id, u, 1)))
  }

  /** `getTasks`: the shared listing query over the task table. */
  function GetTasks(s: Store, q: TaskListing.ListQuery): Result<TaskListing.TaskPage, TaskListing.ListError> {
    TaskListing.ListTasks(s.tasks, q)
  }

  /** The number of participations in task `id` that are not withdrawn (`status != 0`). */
  function ActiveJoins(ps: seq<Participation>, id: TaskId): nat
    decreases |ps|
  {
    if |ps| == 0 then 0
    else ActiveJoins(ps[..|ps| - 1], id) + (if ps[|ps| - 1].taskId == id && ps[|ps| - 1].status != 0 then 1 else 0)
  }

  lemma ActiveJoinsAppend(ps: seq<Participation>, p: Participation, id: TaskId)
    ensures ActiveJoins(ps + [p], id) == ActiveJoins(ps, id) + (if p.taskId == id && p.status != 0 then 1 else 0)
  {
    assert (ps + [p])[..|ps|] == ps;
  }

  lemma {:induction false} NoJoinsForUnknownTask(ps: seq<Participation>, id: TaskId)
    requires forall k :: 0 <= k < |ps| ==> ps[k].taskId != id
    ensures ActiveJoins(ps, id) == 0
    decreases |ps|
  {
    if |ps| > 0 {
      NoJoinsForUnknownTask(ps[..|ps| - 1], id);
    }
  }

  /** No two task rows share a primary key. */
  predicate UniqueTaskIds(tasks: seq<Task>) {
    forall i, j :: 0 <= i < j < |tasks| ==> tasks[i].id != tasks[j].id
  }

  /** Every task's `currentParticipants` counts its participations that are not withdrawn. */
  predicate CountersMatch(tasks: seq<Task>, ps: seq<Participation>) {
    forall i :: 0 <= i < |tasks| ==> tasks[i].currentParticipants == ActiveJoins(ps, tasks[i].id)
  }

  /** Every participation points at an existing task. */
  predicate JoinsReferToTasks(tasks: seq<Task>, ps: seq<Participation>) {
    forall k :: 0 <= k < |ps| ==> TaskIdTaken(tasks, ps[k].taskId)
  }

  /** No user holds two live participations in the same task. */
  predicate SingleActiveJoin(ps: seq<Participation>) {
    forall k, l :: 0 <= k < l < |ps| && ps[k].status != 0 && ps[l].status != 0 ==>
      ps[k].taskId != ps[l].taskId || ps[k].userId != ps[l].userId
  }

  /** The bookkeeping of the task board that creation and joining keep. */
  predicate BoardInvariant(s: Store) {
    && UniqueTaskIds(s.tasks)
    && CountersMatch(s.tasks, s.userTasks)
    && JoinsReferToTasks(s.tasks, s.userTasks)
    && SingleActiveJoin(s.userTasks)
  }

  /** The empty board satisfies the invariant. */
  lemma EmptyBoardInvariant(s: Store)
    requires s.tasks == [] && s.userTasks == []
    ensures BoardInvariant(s)
  {
  }

  /** A new task starts with no participants, under a fresh id. */
  lemma CreateTaskPreservesBoard(s: Store, req: CreateTaskRequest, taskId: TaskId, now: Timestamp)
    requires BoardInvariant(s)
    requires CreateTask(s, req, taskId, now).Ok?
    ensures BoardInvariant(CreateTask(s, req, taskId, now).value.0)
  {
    var (s', task) := CreateTask(s, req, taskId, now).value;
    assert forall k :: 0 <= k < |s.userTasks| ==> s.userTasks[k].taskId != taskId;
    NoJoinsForUnknownTask(s.userTasks, taskId);
    forall k | 0 <= k < |s'.userTasks|
      ensures TaskIdTaken(s'.tasks, s'.userTasks[k].taskId)
    {
      var i :| 0 <= i < |s.tasks| && s.tasks[i].id == s.userTasks[k].taskId;
      assert s'.tasks[i] == s.tasks[i];
    }
  }

  lemma CountersAfterJoin(tasks: seq<Task>, ps: seq<Participation>, id: TaskId, p: Participation)
    requires CountersMatch(tasks, ps)
    requires p.taskId == id && p.status != 0
    ensures CountersMatch(IncrementParticipants(tasks, id), ps + [p])
  {
    var tasks' := IncrementParticipants(tasks, id);
    forall i | 0 <= i < |tasks'|
      ensures tasks'[i].currentParticipants == ActiveJoins(ps + [p], tasks'[i].id)
    {
      ActiveJoinsAppend(ps, p, tasks[i].id);
    }
  }

  lemma ReferencesAfterJoin(tasks: seq<Task>, ps: seq<Participation>, id: TaskId, p: Participation)
    requires JoinsReferToTasks(tasks, ps)
    requires p.taskId == id && TaskIdTaken(tasks, id)
    ensures JoinsReferToTasks(IncrementParticipants(tasks, id), ps + [p])
  {
    var tasks' := IncrementParticipants(tasks, id);
    forall k | 0 <= k < |ps + [p]|
      ensures TaskIdTaken(tasks', (ps + [p])[k].taskId)
    {
      var i :| 0 <= i < |tasks| && tasks[i].id == (ps + [p])[k].taskId;
      assert tasks'[i].id == tasks[i].id;
    }
  }

  lemma SingleAfterJoin(ps: seq<Participation>, p: Participation)
    requires SingleActiveJoin(ps) && !HasJoined(ps, p.taskId, p.userId)
    ensures SingleActiveJoin(ps + [p])
  {
  }

  lemma UniqueAfterIncrement(tasks: seq<Task>, id: TaskId)
    requires UniqueTaskIds(tasks)
    ensures UniqueTaskIds(IncrementParticipants(tasks, id))
  {
  }

  /** A join adds one live participation and exactly one to the joined task's counter. */
  lemma JoinTaskPreservesBoard(s: Store, id: TaskId, u: UserId, pid: string, now: Timestamp)
    requires BoardInvariant(s)
    requires JoinTask(s, id, u, pid, now).Ok?
    ensures BoardInvariant(JoinTask(s, id, u, pid, now).value.0)
  {
    var p := Participation(pid, id, u, 1, 0, now);
    var tasks' := IncrementParticipants(s.tasks, id);
    assert Eligible(s, id, u, now);
    assert JoinTask(s, id, u, pid, now).value.0 == s.(userTasks := s.userTasks + [p], tasks := tasks');
    var t := OpenTask(s.tasks, id).value;
    var j :| 0 <= j < |s.tasks| && s.tasks[j] == t;
    CountersAfterJoin(s.tasks, s.userTasks, id, p);
    ReferencesAfterJoin(s.tasks, s.userTasks, id, p);
    SingleAfterJoin(s.userTasks, p);
    UniqueAfterIncrement(s.tasks, id);
  }

  /** Joining never reads the capacity: a task already at its `maxParticipants` still accepts a joiner. */
  lemma JoinIgnoresCapacity(now: Timestamp)
    ensures
      var full := Task("t", 1, "a", "b", None, 1, 10, Some(1), 1, 1, None, 0, 0, 0, 1, "owner", now);
      var s := Store(map[], map[], [], [full], [Participation("p0", "t", "first", 1, 0, now)],
                     map[], [], map[], [], {});
      var r := JoinTask(s, "t", "second", "p1", now);
      && r.Ok?
      && r.value.0.tasks[0].currentParticipants == 2 > full.maxParticipants.value
  {
    var full := Task("t", 1, "a", "b", None, 1, 10, Some(1), 1, 1, None, 0, 0, 0, 1, "owner", now);
    var s := Store(map[], map[], [], [full], [Participation("p0", "t", "first", 1, 0, now)],
                   map[], [], map[], [], {});
    assert OpenTask(s.tasks, "t") == Some(full);
    assert !HasJoined(s.userTasks, "t", "second");
  }

  /** Task creation keeps the points ledger replayable: the only balance change is the recorded fee. */
  lemma CreateTaskPreservesLedger(s: Store, req: CreateTaskRequest, taskId: TaskId, now: Timestamp)
    requires Ledger.Invariant(s)
    requires CreateTask(s, req, taskId, now).Ok?
    ensures Ledger.Invariant(CreateTask(s, req, taskId, now).value.0)
  {
    var s1 := s.(tasks := s.tasks + [TaskRow(req, taskId, now)]);
    assert Ledger.Invariant(s1) by {
      forall v | v in s1.profiles ensures Ledger.Consistent(s1, v) {
        assert Ledger.Consistent(s, v);
      }
    }
    if req.rewardType == PointsReward {
      Ledger.PostPreservesInvariant(s1, req.createdBy, Spend, "task_publish", Some(taskId), PublishCost,
        "发布任务", Some("发布任务消耗" + JsText.Decimal(PublishCost) + "积分"), now);
    }
  }

  /** Joining touches neither profiles nor records. */
  lemma JoinTaskPreservesLedger(s: Store, id: TaskId, u: UserId, pid: string, now: Timestamp)
    requires Ledger.Invariant(s)
    requires JoinTask(s, id, u, pid, now).Ok?
    ensures Ledger.Invariant(JoinTask(s, id, u, pid, now).value.0)
  {
    var s' := JoinTask(s, id, u, pid, now).value.0;
    forall v | v in s'.profiles ensures Ledger.Consistent(s', v) {
      assert Ledger.Consistent(s, v);
    }
  }
}

=== FILE: task_service_ts.dfy ===
/**
 * The TypeScript twin of the task service, `lib/services/TaskService.ts`. It shares the points
 * check, the join rules, joining and the publishing fee with `api/TaskModule.js`, but creates
 * tasks without validating the request and inserts its values without defaults, and it returns
 * tasks through `mapRowToTask`.
 */
module TaskServiceTs {
  import opened Wrappers
  import opened Store
  import JsText
  import Ledger
  import TaskListing
  import TaskModule

  /** The decoded `requirements` column: `[]` for an empty column, else the parsed JSON (kept as text). */
  datatype Requirements = NoRequirements | ParsedJson(json: string)

  /** The `Task` object the service hands out, with its flags decoded to booleans. */
  datatype TsTask = TsTask(
    id: TaskId,
    categoryId: int,
    title: string,
    description: string,
    requirements: Requirements,
    rewardType: int,
    rewardValue: int,
    maxParticipants: Option<int>,
    currentParticipants: int,
    difficultyLevel: int,
    endTime: Option<Timestamp>,
    isRecurring: bool,
    locationRequired: bool,
    imageRequired: bool,
    status: int,
    createdBy: UserId,
    createdAt: Timestamp)

  /**
   * `mapRowToTask`: a flag is true exactly when its column is 1, and an absent or empty
   * `requirements` column reads as the empty list.
   */
  function MapRowToTask(row: Task): (t: TsTask)
    ensures t.isRecurring <==> row.isRecurring == 1
    ensures t.locationRequired <==> row.locationRequired == 1
    ensures t.imageRequired <==> row.imageRequired == 1
    ensures t.requirements == NoRequirements <==> row.requirements.None? || row.requirements.value == ""
    ensures t.requirements.ParsedJson? ==> row.requirements == Some(t.requirements.json)
    ensures t.id == row.id && t.status == row.status && t.createdBy == row.createdBy
    ensures t.currentParticipants == row.currentParticipants && t.rewardValue == row.rewardValue
    ensures t.title == row.title && t.description == row.description && t.categoryId == row.categoryId
    ensures t.rewardType == row.rewardType && t.maxParticipants == row.maxParticipants
    ensures t.difficultyLevel == row.difficultyLevel && t.endTime == row.endTime && t.createdAt == row.createdAt
  {
    TsTask(row.id, row.categoryId, row.title, row.description,
           if row.requirements.None? || row.requirements.value == "" then NoRequirements
           else ParsedJson(row.requirements.value),
           row.rewardType, row.rewardValue, row.maxParticipants, row.currentParticipants,
           row.difficultyLevel, row.endTime,
           row.isRecurring == 1, row.locationRequired == 1, row.imageRequired == 1,
           row.status, row.createdBy, row.createdAt)
  }

  /**
   * The INSERT of `createTask` can bind the request: no field it binds was left out. A missing
   * `requirements` list is no exception, since `JSON.stringify(undefined)` is `undefined`.
   */
  predicate Bindable(req: TaskModule.CreateTaskRequest) {
    && !req.requirements.Absent? && !req.maxParticipants.Absent? && !req.endTime.Absent?
    && req.optional.AllSent()
  }

  /**
   * The row `createTask` inserts: the request's values as given, status 1, no participants. A
   * `null` requirements list is stored as the JSON text `null`.
   */
  function TsTaskRow(req: TaskModule.CreateTaskRequest, id: TaskId, now: Timestamp): Task {
    Task(id, req.categoryId, req.title, req.description,
         Some(if req.requirements.Given? then req.requirements.value else "null"),
         req.rewardType, req.rewardValue, req.maxParticipants.Bound(), 0, req.difficultyLevel, req.endTime.Bound(),
         if req.isRecurring then 1 else 0, if req.locationRequired then 1 else 0, if req.imageRequired then 1 else 0,
         1, req.createdBy, now)
  }

  /** The stored flags decode back to the request's: each boolean survives the 1/0 column. */
  lemma FlagsRoundTrip(req: TaskModule.CreateTaskRequest, id: TaskId, now: Timestamp)
    ensures var t := MapRowToTask(TsTaskRow(req, id, now));
      t.isRecurring == req.isRecurring && t.locationRequired == req.locationRequired
      && t.imageRequired == req.imageRequired
    ensures var t := MapRowToTask(TaskModule.TaskRow(req, id, now));
      t.isRecurring == req.isRecurring && t.locationRequired == req.locationRequired
      && t.imageRequired == req.imageRequired
  {
  }

  /**
   * How requirements read back: a list `api/TaskModule.js` stored for a missing one is the text
   * `[]`, parsed like any other; the twin stores `null` for a `null` list; only an empty text
   * falls to the `[]` default of `mapRowToTask`.
   */
  lemma StoredRequirementsParse(req: TaskModule.CreateTaskRequest, id: TaskId, now: Timestamp)
    ensures !req.requirements.Given? ==>
      MapRowToTask(TaskModule.TaskRow(req, id, now)).requirements == ParsedJson("[]")
    ensures req.requirements.Given? ==>
      MapRowToTask(TaskModule.TaskRow(req, id, now)).requirements
      == (if req.requirements.value == "" then NoRequirements else ParsedJson(req.requirements.value))
    ensures req.requirements.Null? ==> MapRowToTask(TsTaskRow(req, id, now)).requirements == ParsedJson("null")
  {
  }

  /** `validateUserPoints`: the same rule as the JavaScript service. */
  function ValidateUserPoints(s: Store, u: UserId, rewardType: int, rewardValue: int)
    : (r: Outcome<TaskModule.TaskError>)
    ensures r == TaskModule.ValidateUserPoints(s, u, rewardType, rewardValue)
  {
    if rewardType != TaskModule.PointsReward then Pass
    else
      var userPoints := Balance(s, u);
      if userPoints < rewardValue + TaskModule.PublishCost
      then Fail(TaskModule.InsufficientPoints(rewardValue + TaskModule.PublishCost, userPoints))
      else Pass
  }

  /** `processPointsForTaskCreation`: the same fee and record as the JavaScript service. */
  function ProcessPointsForTaskCreation(s: Store, u: UserId, taskId: TaskId, now: Timestamp): (s': Store)
    ensures s' == TaskModule.ProcessPointsForTaskCreation(s, u, taskId, now)
    ensures u in s.profiles ==> Balance(s', u) == Balance(s, u) - TaskModule.PublishCost
    ensures |s'.records| == |s.records| + 1
    ensures s'.records[|s.records|].kind == Spend && s'.records[|s.records|].sourceType == "task_publish"
    ensures s'.records[|s.records|].sourceId == Some(taskId)
    ensures s'.records[|s.records|].balanceAfter == Balance(s, u) - TaskModule.PublishCost
  {
    Ledger.Post(s, u, Spend, "task_publish", Some(taskId), TaskModule.PublishCost,
                "发布任务", Some("发布任务消耗" + JsText.Decimal(TaskModule.PublishCost) + "积分"), now)
  }

  /**
   * `createTask`: only the points check and the insert can fail, the insert on a field left out
   * of the request or a taken id; the title, description, end time and reward sign are never
   * looked at.
   */
  function CreateTask(s: Store, req: TaskModule.CreateTaskRequest, taskId: TaskId, now: Timestamp)
    : (r: Result<(Store, TsTask), TaskModule.TaskError>)
    ensures r.Ok? <==>
      ValidateUserPoints(s, req.createdBy, req.rewardType, req.rewardValue).Pass? && Bindable(req)
      && !TaskModule.TaskIdTaken(s.tasks, taskId)
    ensures r == Err(TaskModule.UnboundField) <==>
      ValidateUserPoints(s, req.createdBy, req.rewardType, req.rewardValue).Pass? && !Bindable(req)
    ensures r == Err(TaskModule.DuplicateKey) <==>
      ValidateUserPoints(s, req.createdBy, req.rewardType, req.rewardValue).Pass? && Bindable(req)
      && TaskModule.TaskIdTaken(s.tasks, taskId)
    ensures r.Err? ==>
      r.error == TaskModule.DuplicateKey || r.error == TaskModule.UnboundField
      || r.error == TaskModule.InsufficientPoints(req.rewardValue + TaskModule.PublishCost, Balance(s, req.createdBy))
    ensures r.Ok? ==>
      var (s', task) := r.value;
      && s'.tasks == s.tasks + [TsTaskRow(req, taskId, now)]
      && task == MapRowToTask(TsTaskRow(req, taskId, now))
      && task.status == 1 && task.currentParticipants == 0 && task.title == req.title
      && (req.rewardType == TaskModule.PointsReward ==>
            && (req.createdBy in s.profiles ==> Balance(s', req.createdBy) == Balance(s, req.createdBy) - TaskModule.PublishCost)
            && |s'.records| == |s.records| + 1
            && s'.records[|s.records|].userId == req.createdBy
            && s'.records[|s.records|].kind == Spend
            && s'.records[|s.records|].sourceType == "task_publish"
            && s'.records[|s.records|].sourceId == Some(taskId)
            && s'.records[|s.records|].points == TaskModule.PublishCost
            && s'.records[|s.records|].balanceAfter == Balance(s, req.createdBy) - TaskModule.PublishCost)
      && (req.rewardType != TaskModule.PointsReward ==> s'.records == s.records && s'.profiles == s.profiles)
      && s'.records[..|s.records|] == s.records
      && s'.profiles.Keys == s.profiles.Keys
      && (req.createdBy in s.profiles ==>
            s'.profiles[req.createdBy] == s.profiles[req.createdBy].(totalPoints := Balance(s', req.createdBy)))
      && (forall v :: v in s.profiles && v != req.createdBy ==> s'.profiles[v] == s.profiles[v])
      && s' == s.(tasks := s'.tasks, profiles := s'.profiles, records := s'.records)
  {
    match ValidateUserPoints(s, req.createdBy, req.rewardType, req.rewardValue)
    case Fail(e) => Err(e)
    case Pass =>
      var row := TsTaskRow(req, taskId, now);
      if !Bindable(req) then Err(TaskModule.UnboundField)
      else if TaskModule.TaskIdTaken(s.tasks, taskId) then Err(TaskModule.DuplicateKey)
      else
        var s1 := s.(tasks := s.tasks + [row]);
        var s2 := if req.rewardType == TaskModule.PointsReward then ProcessPointsForTaskCreation(s1, req.createdBy, taskId, now) else s1;
        Ok((s2, MapRowToTask(row)))
  }

  /**
   * The twin skips validation: whenever the points check passes and the id is free, it creates
   * the task exactly when every bound field was sent, even for requests the JavaScript service
   * rejects.
   */
  lemma CreateTaskSkipsValidation(s: Store, req: TaskModule.CreateTaskRequest, taskId: TaskId, now: Timestamp)
    requires TaskModule.ValidateUserPoints(s, req.createdBy, req.rewardType, req.rewardValue).Pass?
    requires !TaskModule.TaskIdTaken(s.tasks, taskId)
    ensures CreateTask(s, req, taskId, now).Ok? <==> Bindable(req)
    ensures !TaskModule.ValidRequest(req, now) ==> TaskModule.CreateTask(s, req, taskId, now).Err?
  {
  }

  /**
   * On a valid request the twin succeeds exactly when the JavaScript service does and every bound
   * field was sent, and then both charge the same fee.
   */
  lemma CreateTaskAgreesOnValidRequests(s: Store, req: TaskModule.CreateTaskRequest, taskId: TaskId, now: Timestamp)
    requires TaskModule.ValidRequest(req, now)
    ensures CreateTask(s, req, taskId, now).Ok? <==> TaskModule.CreateTask(s, req, taskId, now).Ok? && Bindable(req)
    ensures CreateTask(s, req, taskId, now).Ok? ==>
      CreateTask(s, req, taskId, now).value.0.records == TaskModule.CreateTask(s, req, taskId, now).value.0.records
      && CreateTask(s, req, taskId, now).value.0.profiles == TaskModule.CreateTask(s, req, taskId, now).value.0.profiles
  {
    assert TaskModule.ValidateCreateTaskRequest(req, now).Pass?;
    if CreateTask(s, req, taskId, now).Ok? {
      FeeReadsOnlyLedger(s.(tasks := s.tasks + [TsTaskRow(req, taskId, now)]),
                         s.(tasks := s.tasks + [TaskModule.TaskRow(req, taskId, now)]), req.createdBy, taskId, now);
    }
  }

  /** The fee posting reads only the profiles and the records, so the inserted row does not matter. */
  lemma FeeReadsOnlyLedger(s1: Store, s2: Store, u: UserId, taskId: TaskId, now: Timestamp)
    requires s1.profiles == s2.profiles && s1.records == s2.records
    ensures var a := TaskModule.ProcessPointsForTaskCreation(s1, u, taskId, now);
      var b := TaskModule.ProcessPointsForTaskCreation(s2, u, taskId, now);
      a.profiles == b.profiles && a.records == b.records
  {
  }

  /** The six optional columns, each sent as `null`. */
  function NoOptionalColumns(): TaskModule.OptionalColumns {
    TaskModule.OptionalColumns(Null, Null, Null, Null, Null, Null)
  }

  /**
   * Without validation a negative reward lowers the points bar, so a creator with no points can
   * publish and end below zero; the JavaScript service refuses the same request.
   */
  lemma NegativeRewardOverdraws(now: Timestamp)
    ensures
      var s := Store(map["u" := Profile(0, 1, 0, 0)], map[], [], [], [], map[], [], map[], [], {});
      var req := TaskModule.CreateTaskRequest("t", "d", 1, Given("[]"), 1, -5, Given(3), 1, Given(now + 1),
                                              false, false, false, "u", NoOptionalColumns());
      && CreateTask(s, req, "task", now).Ok?
      && Balance(CreateTask(s, req, "task", now).value.0, "u") == -5
      && TaskModule.CreateTask(s, req, "task", now) == Err(TaskModule.RewardNegative)
  {
    var req := TaskModule.CreateTaskRequest("t", "d", 1, Given("[]"), 1, -5, Given(3), 1, Given(now + 1),
                                            false, false, false, "u", NoOptionalColumns());
    assert req.title[0] == 't' && !JsText.IsTrimmable('t');
    assert req.description[0] == 'd' && !JsText.IsTrimmable('d');
  }

  /**
   * The interface marks the capacity optional, but a request that leaves it out fails the twin's
   * insert, while the JavaScript service stores NULL and creates the task.
   */
  lemma OmittedCapacityFailsOnlyInTwin(now: Timestamp)
    ensures
      var s := Store(map[], map[], [], [], [], map[], [], map[], [], {});
      var req := TaskModule.CreateTaskRequest("t", "d", 1, Given("[]"), 2, 0, Absent, 1, Given(now + 1),
                                              false, false, false, "u", NoOptionalColumns());
      && CreateTask(s, req, "task", now) == Err(TaskModule.UnboundField)
      && TaskModule.CreateTask(s, req, "task", now).Ok?
      && TaskModule.CreateTask(s, req, "task", now).value.1.maxParticipants.None?
  {
    var req := TaskModule.CreateTaskRequest("t", "d", 1, Given("[]"), 2, 0, Absent, 1, Given(now + 1),
                                            false, false, false, "u", NoOptionalColumns());
    assert req.title[0] == 't' && !JsText.IsTrimmable('t');
    assert req.description[0] == 'd' && !JsText.IsTrimmable('d');
  }

  /** `validateTaskForJoining`: the same rules in the same order, returning the mapped task. */
  function ValidateTaskForJoining(s: Store, id: TaskId, u: UserId, now: Timestamp)
    : (r: Result<TsTask, TaskModule.TaskError>)
    ensures r.Ok? <==> TaskModule.ValidateTaskForJoining(s, id, u, now).Ok?
    ensures r.Err? ==> r.error == TaskModule.ValidateTaskForJoining(s, id, u, now).error
    ensures r.Ok? ==> r.value == MapRowToTask(TaskModule.ValidateTaskForJoining(s, id, u, now).value)
  {
    match TaskModule.OpenTask(s.tasks, id)
    case None => Err(TaskModule.TaskUnavailable)
    case Some(task) =>
      if task.createdBy == u then Err(TaskModule.OwnTask)
      else if TaskModule.Expired(task, now) then Err(TaskModule.TaskExpired)
      else if TaskModule.HasJoined(s.userTasks, id, u) then Err(TaskModule.AlreadyJoined)
      else Ok(MapRowToTask(task))
  }

  /** `joinTask`: the same participation row, key check and counter increment as the JavaScript service. */
  function JoinTask(s: Store, id: TaskId, u: UserId, pid: string, now: Timestamp)
    : (r: Result<(Store, TaskModule.JoinReply), TaskModule.TaskError>)
    ensures r == TaskModule.JoinTask(s, id, u, pid, now)
    ensures r.Ok? ==> r.value.0.userTasks == s.userTasks + [Participation(pid, id, u, 1, 0, now)]
  {
    match ValidateTaskForJoining(s, id, u, now)
    case Err(e) => Err(e)
    case Ok(_) =>
      if TaskModule.ParticipationIdTaken(s.userTasks, pid) then Err(TaskModule.DuplicateKey)
      else
        Ok((s.(userTasks := s.userTasks + [Participation(pid, id, u, 1, 0, now)],
               tasks := TaskModule.IncrementParticipants(s.tasks, id)),
            TaskModule.JoinReply(pid, id, u, 1)))
  }

  /** `tasks.map(this.mapRowToTask)` */
  function MapRows(rows: seq<Task>): (r: seq<TsTask>)
    ensures |r| == |rows|
    ensures forall i :: 0 <= i < |rows| ==> r[i] == MapRowToTask(rows[i])
  {
    seq(|rows|, i requires 0 <= i < |rows| => MapRowToTask(rows[i]))
  }

  datatype TsTaskPage = TsTaskPage(tasks: seq<TsTask>, pagination: TaskListing.Pagination)

  /** `getTasks`: the same filter, order and pagination as the JavaScript service, rows mapped. */
  function GetTasks(s: Store, q: TaskListing.ListQuery): (r: Result<TsTaskPage, TaskListing.ListError>)
    ensures r.Ok? <==> TaskModule.GetTasks(s, q).Ok?
    ensures r.Ok? ==>
      && r.value.pagination == TaskModule.GetTasks(s, q).value.pagination
      && r.value.tasks == MapRows(TaskModule.GetTasks(s, q).value.tasks)
    ensures r.Ok? ==> |r.value.tasks| <= q.limit
  {
    match TaskListing.ListTasks(s.tasks, q)
    case Err(e) => Err(e)
    case Ok(page) => Ok(TsTaskPage(MapRows(page.tasks), page.pagination))
  }

  /** The twin's task creation keeps the ledger replayable, as the JavaScript one does. */
  lemma CreateTaskPreservesLedger(s: Store, req: TaskModule.CreateTaskRequest, taskId: TaskId, now: Timestamp)
    requires Ledger.Invariant(s)
    requires CreateTask(s, req, taskId, now).Ok?
    ensures Ledger.Invariant(CreateTask(s, req, taskId, now).value.0)
  {
    var s1 := s.(tasks := s.tasks + [TsTaskRow(req, taskId, now)]);
    assert Ledger.Invariant(s1) by {
      forall v | v in s1.profiles ensures Ledger.Consistent(s1, v) {
        assert Ledger.Consistent(s, v);
      }
    }
    if req.rewardType == TaskModule.PointsReward {
      Ledger.PostPreservesInvariant(s1, req.createdBy, Spend, "task_publish", Some(taskId), TaskModule.PublishCost,
        "发布任务", Some("发布任务消耗" + JsText.Decimal(TaskModule.PublishCost) + "积分"), now);
    }
  }
}

=== FILE: wrappers.dfy ===
/** Failure-compatible wrappers shared by every module of the model. */
module Wrappers {

  /** An optional value: a SQL NULL, an absent request field, an empty query result. */
  datatype Option<+T> = None | Some(value: T) {

    /** The value, or `default` when absent. */
    function GetOr(default: T): T {
      match this
      case Some(v) => v
      case None => default
    }
  }

  /**
   * One field of a JSON request body: left out (`undefined`), sent as `null`, or sent with a value.
   * The MySQL driver binds `null` as SQL NULL but refuses to bind a field that was left out.
   */
  datatype Field<+T> = Absent | Null | Given(value: T) {

    /** The SQL value a bind of this field stores: NULL for `null`, and for a field never bound. */
    function Bound(): Option<T> {
      match this
      case Given(v) => Some(v)
      case _ => None
    }
  }

  /** The outcome of one endpoint: a value, or the error the endpoint reports. */
  datatype Result<+T, +E> = Ok(value: T) | Err(error: E) {

    predicate IsFailure() {
      Err?
    }

    function PropagateFailure<U>(): Result<U, E>
      requires Err?
    {
      Err(error)
    }

    function Extract(): T
      requires Ok?
    {
      value
    }
  }

  /** A check that either passes or reports an error, usable with `:-`. */
  datatype Outcome<+E> = Pass | Fail(error: E) {

    predicate IsFailure() {
      Fail?
    }

    function PropagateFailure<U>(): Result<U, E>
      requires Fail?
    {
      Err(error)
    }
  }
}
